=== FILE: README.md ===
# Selection criteria of the parameter framework, in Dafny

This project models the selection-criterion engine of the parameter
framework: the state variables ("criteria") that the framework's rules test
when they pick a configuration. It covers the following:

- the value table of a criterion (`CriterionInterface::Values`, a
  `std::map` from literal names to numerical codes) and the translations
  between literals and codes;
- the exclusive criterion (class `Criterion`), which holds exactly one value,
  and the inclusive criterion (class `InclusiveCriterion`), which holds any
  set of values;
- construction and its minimum value counts;
- `setState`, with change detection, the modification counter, the log lines
  of a modification event, and the error cases;
- the match methods `Is`, `IsNot`, `Includes` and `Excludes`, and the
  `std::out_of_range` raised for an unknown method;
- the formatted state, the four description formats, the list of possible
  values and the XML element a criterion serialises to;
- the `Criteria` registry, which creates criteria, looks them up by name,
  resets them in bulk, lists them and serialises them.

Modules, one per file:

| module | file | contents |
|---|---|---|
| `Outcomes` | outcomes.dfy | `Option` and `Result`. A `Result` is how an exception or a `false` return with an error string is modelled |
| `Text` | text.dfy | joining and splitting on a delimiter, decimal rendering and parsing, substring search |
| `IntSets` | int_sets.dfy | the ascending enumeration of a `std::set<int>` |
| `CriterionInterface` | criterion_interface.dfy | the value table and the literal/numerical translations |
| `Xml` | xml.dfy | the shape of a serialised element |
| `Criterion` | criterion.dfy | the criterion record and every operation on it |
| `CriterionProperties` | criterion_properties.dfy | properties that relate several calls |
| `Criteria` | criteria.dfy | the registry |
| `CriterionScenarios` | criterion_scenarios.dfy | the unit-test scenarios, stated over the model |
| `Findings` | findings.dfy | the inclusive formatted state as the source writes it |

How the C++ is represented:

- A criterion is an immutable record. Each operation returns the new record.
  `setState` returns an `Update` that holds the new criterion, the log lines
  written and the error message, if any.
- The two classes become one record tagged with a `Kind`.
- The match-method table maps names to a `MatchMethod` tag. The C++ stores
  lambdas instead.
- The logger is replaced by the list of `LogLine`s an operation returns.
- The `uint32_t` modification counter is a bounded integer that wraps.

## Model

| member | source | states |
|---|---|---|
| Criterion.NewCriterion | parameter/criterion/include/criterion/Criterion.h:54-62 | Construction succeeds exactly when the table has enough values: two for an exclusive criterion, one for an inclusive one. Otherwise it fails with a message that names the criterion. A new criterion is well formed, unmodified and in its default state: the first table value for an exclusive criterion, the empty set for an inclusive one |
| Criterion.NotEnoughValuesMessage | parameter/criterion/src/InclusiveCriterion.cpp:57-60 | The construction error is non-empty and contains the criterion's name |
| Criterion.IsInclusiveAsBuilt | parameter/criterion/src/InclusiveCriterion.cpp:63-66 | `isInclusive` is true exactly for an inclusive criterion, and the name read back is the name given |
| Criterion.Bump | parameter/criterion/include/criterion/Criterion.h:187-188 | Incrementing the `uint32_t` counter adds one modulo 2^32. The result is zero only after the maximum, and it is exactly one more below that |
| Criterion.DerivedMatchMethodsAreAdded | parameter/criterion/include/criterion/Criterion.h:144-161 | An exclusive criterion has the methods `Is` and `IsNot`. An inclusive one has these four: `Is`, `IsNot`, `Includes`, `Excludes`. The derived methods are added to the base ones and replace none of them |
| Criterion.ResetModifiedStatus | parameter/criterion/include/criterion/Criterion.h:77-87 | After a reset the criterion is not modified. Its state and constant fields are unchanged, and a well-formed criterion stays well formed |
| Criterion.IsValueAvailable | parameter/criterion/include/criterion/Criterion.h:121-126 | True exactly when some literal of the table carries the code |
| Criterion.GetNumericalValue | parameter/criterion/include/criterion/client/CriterionInterface.h:53-62 | Succeeds exactly when the literal is in the table, and then outputs that literal's code. On failure the output argument keeps its old value |
| Criterion.GetLiteralValue | parameter/criterion/include/criterion/client/CriterionInterface.h:64-73 | Succeeds exactly when the code is in the table, and then outputs a literal that carries it. On failure the output argument keeps its old value |
| Criterion.TranslateTokens | parameter/criterion/include/criterion/client/CriterionInterface.h:53-62 | A list of literals translates exactly when every literal is registered. The result is the set of their codes |
| Criterion.ParseState | parameter/criterion/include/criterion/client/CriterionInterface.h:53-62 | Reading a literal representation back never yields an unregistered code: a parsed state only holds registered codes |
| Criterion.RejectionMessage | parameter/criterion/src/InclusiveCriterion.cpp:89-92 | A set error is non-empty and names the criterion |
| Criterion.ModificationEvent | parameter/criterion/include/criterion/Criterion.h:178-183 | A modification logs exactly one line, the changed event, on a first change. It logs exactly two lines, the changed event and then the unapplied-changes warning, when earlier changes are unapplied. It increments the counter. Constants and state are kept |
| Criterion.SetState | parameter/criterion/src/InclusiveCriterion.cpp:84-98 | The set succeeds exactly when the requested state is admissible: registered codes only, and at most one code for an exclusive criterion. Requesting the current state does nothing and logs nothing. A failure leaves the criterion unchanged and logs nothing. A successful change assigns the state, increments the counter once, and logs the changed event, which describes the new state. It logs that one line alone on a first change, and adds the warning as a second and last line exactly when the counter was already non-zero. Well-formedness and constants are kept |
| Criterion.RegisteredIsAdmissible | parameter/criterion/src/InclusiveCriterion.cpp:88-89 | A state is a subset of the table's codes exactly when each of its codes has a literal |
| Criterion.Match | parameter/criterion/include/criterion/Criterion.h:89-97 | An unknown method name is an error, never a false result. `Is` is state equality and `IsNot` is its negation. On an inclusive criterion `Includes` means the queried set is a subset, and `Excludes` means it is disjoint |
| Criterion.InclusiveMethodTable | parameter/criterion/src/InclusiveCriterion.cpp:46-55 | `Includes` (the `std::includes` lambda) holds exactly for subsets. `Excludes` (an empty `std::set_intersection`) holds exactly for disjoint sets |
| Criterion.AvailableMatchMethods | parameter/criterion/include/criterion/Criterion.h:99-104 | An exclusive criterion answers to exactly `Is` and `IsNot`. An inclusive one answers to exactly the four methods |
| Criterion.FormattedState | parameter/criterion/src/InclusiveCriterion.cpp:68-82 | An empty inclusive state formats as "none". An exclusive criterion formats as the literal of its value |
| CriterionProperties.InclusiveFormattedInCodeOrder | parameter/criterion/src/InclusiveCriterion.cpp:74-80 | Splitting a non-empty inclusive formatted state on "\|" gives the literals of the state's codes, in the strictly ascending order of the codes |
| CriterionProperties.LiteralsOfAscendingCodes | parameter/criterion/src/InclusiveCriterion.cpp:74-80 | Literals listed for strictly ascending codes of a state translate back to codes of that state, again strictly ascending |
| Criterion.ToXml | parameter/criterion/include/criterion/Criterion.h:128-133 | The element is a `SelectionCriterion` with three attributes and one child per table entry, each child being that entry's value-pair element |
| CriterionProperties.PossibleValuesReadBack | parameter/criterion/include/criterion/Criterion.h:115-119 | The list of possible values is braced. Split on "," inside the braces, it gives the first literal, then each further literal after one space, one piece per table entry in table order |
| Criterion.DescriptionsShowNameAndState | parameter/criterion/include/criterion/Criterion.h:106-113 | Every description format contains the name and the formatted state. With type information it also contains the kind and the possible values. The human-readable and untyped formats end with the formatted state, and the typed one-line format ends with the possible values |
| Criterion.TitleUnderline | parameter/criterion/test/CriterionUnitTest.cpp:417-426 | The human-readable typed description starts with a new line, the name and ":", then a new line and an underline of one "=" per character of that title |
| Criterion.ValuePairElements | parameter/criterion/include/criterion/Criterion.h:128-133 | One `ValuePair` element per table entry, in table order |
| Criterion.PairElementRoundTrip | parameter/criterion/include/criterion/Criterion.h:128-133 | The `Literal` and `Numerical` attributes of a value-pair element read back to its entry |
| Criterion.ValuePairsRoundTrip | parameter/criterion/include/criterion/Criterion.h:128-133 | The value-pair elements read back to the whole table, entry by entry and in order |
| Criterion.XmlRoundTrip | parameter/criterion/include/criterion/Criterion.h:128-133 | Reading the criterion element back gives the name, the kind, the formatted state and the whole value table, entry by entry and in order |
| CriterionInterface.LiteralsAreKeys | parameter/criterion/include/criterion/client/CriterionInterface.h:46-47 | No two entries of a table share a literal |
| CriterionInterface.NumericalValue | parameter/criterion/include/criterion/client/CriterionInterface.h:53-62 | The lookup finds a code exactly when the table holds that literal with that code |
| CriterionInterface.LiteralValue | parameter/criterion/include/criterion/client/CriterionInterface.h:64-73 | The lookup finds nothing exactly when the code is unregistered. Otherwise it returns a literal that carries the code |
| CriterionInterface.NumericalLiteralRoundTrip | parameter/criterion/test/CriterionUnitTest.cpp:466-483 | For a registered code, translating to a literal and back gives the code |
| CriterionInterface.LiteralNumericalRoundTrip | parameter/criterion/test/CriterionUnitTest.cpp:466-483 | For a registered literal, translating to a code and back gives the literal, provided codes are unique |
| CriterionInterface.PairsTranslate | parameter/criterion/test/CriterionUnitTest.cpp:470-482 | Each entry's literal and code translate into each other, provided codes are unique |
| CriterionProperties.SetStateIdempotent | parameter/criterion/include/criterion/Criterion.h:77-84 | Repeating a successful set does nothing: no change, no log line, no counted modification |
| CriterionProperties.SetStateCountsAtMostOne | parameter/criterion/include/criterion/Criterion.h:178-188 | A set counts one modification exactly when it succeeds and changes the state, and no modification otherwise |
| CriterionProperties.ChangeThenReset | parameter/criterion/test/CriterionUnitTest.cpp:303-327 | Requesting a different, non-empty state of registered codes (a single code for an exclusive criterion) succeeds and marks the criterion modified. A reset then clears the mark and keeps the new state |
| CriterionProperties.ExclusiveRejectsSeveralValues | parameter/criterion/test/CriterionUnitTest.cpp:349-355 | Requesting several values of an exclusive criterion fails, changes nothing and logs nothing |
| CriterionProperties.UnregisteredValueRejected | parameter/criterion/src/InclusiveCriterion.cpp:88-93 | A state with an unregistered code is refused for either kind. The criterion, including its modified status, is unchanged |
| CriterionProperties.TranslateLiteralsOfState | parameter/criterion/include/criterion/client/CriterionInterface.h:53-73 | The literals of the state's codes translate back into exactly the state |
| CriterionProperties.FormattedStateRoundTrip | parameter/criterion/src/InclusiveCriterion.cpp:68-82 | The formatted state parses back into the state. This holds for a non-empty inclusive state whose literals contain no "\|", and for any exclusive state. It uses `getNumericalValue`'s "\|" convention |
| CriterionProperties.NoneExactlyWhenEmpty | parameter/criterion/src/InclusiveCriterion.cpp:70-72 | An inclusive criterion formats as "none" exactly when its state is empty, provided no literal is "none" or contains "\|" |
| Criteria.GetSelectionCriterion | parameter/criterion/test/CriterionUnitTest.cpp:638-654 | The lookup finds the registered criterion with that name. It finds nothing, the source's `NULL` result, exactly when no criterion has that name |
| Criteria.CreateCriterion | parameter/criterion/test/CriterionUnitTest.cpp:607-637 | Creation succeeds exactly when the table is large enough for the kind and the name is free. A failure carries a message that names the criterion. A success appends the new criterion, keeps names unique, and makes the new criterion findable by name |
| Criteria.SetStateOf | parameter/criterion/test/CriterionUnitTest.cpp:655-662 | Setting a criterion through its handle applies `setState` to that criterion and leaves the others unchanged |
| Criteria.ResetModifiedStatus | parameter/criterion/test/CriterionUnitTest.cpp:663-672 | A bulk reset clears every criterion's modified status and keeps states and constants |
| Criteria.ResetClearsEveryCriterion | parameter/criterion/test/CriterionUnitTest.cpp:663-672 | After a bulk reset, no criterion found by name reports a modification |
| Criteria.ListSelectionCriteria | parameter/criterion/test/CriterionUnitTest.cpp:132-147 | The listing has one description per criterion, in registry order, in the requested format |
| Criteria.ToXml | parameter/criterion/test/CriterionUnitTest.cpp:681-715 | The registry element has one child per criterion, and each child is that criterion's element |
| Criteria.XmlListsCriteriaInOrder | parameter/criterion/test/CriterionUnitTest.cpp:681-715 | The registry element is a `SelectionCriteria` with one child per criterion, in creation order. Each child reads back to its criterion's name, kind, formatted state and value table |
| Text.SplitJoin | parameter/criterion/src/InclusiveCriterion.cpp:74-80 | Joining delimiter-free pieces with "\|" and splitting the result gives the pieces back |
| Text.IntToStringRoundTrip | parameter/criterion/test/CriterionUnitTest.cpp:371-373 | The decimal rendering of the `Numerical` attribute parses back to the number |
| IntSets.Ascending | parameter/criterion/src/InclusiveCriterion.cpp:75 | Iterating a `std::set<int>` yields its elements once each, in strictly ascending order |
| IntSets.AscendingUnique | parameter/criterion/src/InclusiveCriterion.cpp:75 | That enumeration is the only strictly ascending sequence with those elements |
| CriterionScenarios.DisplayLines | parameter/criterion/test/CriterionUnitTest.cpp:388-415 | For any criterion, the three one-line descriptions are the exact texts the test builds from the name, the kind, the formatted state and the possible values |
| CriterionScenarios.DisplayBlock | parameter/criterion/test/CriterionUnitTest.cpp:417-426 | For any criterion, the human-readable description with type information is the exact text the test builds, including an underline of the title's length |
| CriterionScenarios.DisplayXml | parameter/criterion/test/CriterionUnitTest.cpp:362-386 | The criterion element has the attributes `Value`, `Name` and `Kind` in that order, followed by the three value pairs |
| CriterionScenarios.DisplayList | parameter/criterion/test/CriterionUnitTest.cpp:435-441 | The possible values list as "{a, b, c}" |
| CriterionScenarios.ExclusiveDisplay | parameter/criterion/test/CriterionUnitTest.cpp:358-443 | A new exclusive criterion over {a:2, b:3, c:4} is in state "a", and its descriptions follow from that |
| CriterionScenarios.InclusiveDisplay | parameter/criterion/test/CriterionUnitTest.cpp:358-443 | A new inclusive criterion over the same table is in state "none", and its descriptions follow from that |
| CriterionScenarios.InclusiveDisplaySet | parameter/criterion/test/CriterionUnitTest.cpp:445-461 | Setting {2, 3, 4} succeeds and formats as "a\|b\|c". Setting a mask with unknown codes fails |
| CriterionScenarios.FormatsAsABC | parameter/criterion/test/CriterionUnitTest.cpp:451-455 | The state {2, 3, 4} over {a:2, b:3, c:4} formats as "a\|b\|c" |
| CriterionScenarios.IncludesExcludesScenario | parameter/criterion/test/CriterionUnitTest.cpp:205-237 | With {1, 3, 4, 7, 10} set, `Includes` holds only for the subset and `Excludes` only for the disjoint set |
| CriterionScenarios.SetNewValueScenario | parameter/criterion/test/CriterionUnitTest.cpp:267-300 | Setting a new registered value updates the state and the formatted state. `Is` then holds and `IsNot` does not, and the changed event is logged with the new description |
| CriterionScenarios.SingleValueFormatted | parameter/criterion/test/CriterionUnitTest.cpp:275-279 | A one-value state formats as that value's literal, for either kind |
| CriterionScenarios.RepeatedChangeWarns | parameter/criterion/test/CriterionUnitTest.cpp:303-327 | Two changes in a row log the warning that the criterion "has been modified 1 time(s)" without an application. A reset then clears the modified status |
| CriterionScenarios.ResetCurrentStateScenario | parameter/criterion/test/CriterionUnitTest.cpp:251-265 | Setting the current state succeeds, logs nothing and leaves the criterion unmodified |
| CriterionScenarios.EmptySetScenario | parameter/criterion/test/CriterionUnitTest.cpp:336-347 | Requesting no value empties an inclusive criterion, which then formats as "none". It returns an exclusive criterion to its first value |
| CriterionScenarios.TooFewValues | parameter/criterion/test/CriterionUnitTest.cpp:537-572 | An exclusive criterion cannot be built with zero or one value. An inclusive one cannot be built with zero values but can be built with one |
| CriterionScenarios.InclusiveTooFewText | parameter/criterion/src/InclusiveCriterion.cpp:57-60 | The inclusive construction error is word for word the source's text |
| CriterionScenarios.InclusiveUnregisteredText | parameter/criterion/src/InclusiveCriterion.cpp:89-92 | The inclusive rejection of an unregistered value is word for word the source's text |
| CriterionScenarios.RegistryScenario | parameter/criterion/test/CriterionUnitTest.cpp:607-616 | Creating either kind of criterion with no values fails with a message |
| CriterionScenarios.RegistryOfFour | parameter/criterion/test/CriterionUnitTest.cpp:681-715 | The registry of A (inclusive), B (exclusive), C (inclusive) and D (exclusive) serialises to the four elements the test expects, in creation order |
| CriterionScenarios.RegistryLookups | parameter/criterion/test/CriterionUnitTest.cpp:638-654 | The registry of four finds each of A, B, C and D by name, as a fresh criterion of its kind, and finds nothing called "Unknown" |
| CriterionScenarios.RegistryModifyThenReset | parameter/criterion/test/CriterionUnitTest.cpp:655-672 | Setting {2} on any of the four criteria marks it modified. A bulk reset then clears all four |
| Findings.FormattedStateAsWritten | parameter/criterion/src/InclusiveCriterion.cpp:68-82 | As written, a non-empty state formats to one character per value with a "\|" between values. An empty state formats as "none" |
| Findings.RawJoinShape | parameter/criterion/src/InclusiveCriterion.cpp:75-80 | As written, even positions hold the low bytes of the codes and odd positions hold the delimiter |
| Findings.AsWrittenIgnoresLiterals | parameter/criterion/src/InclusiveCriterion.cpp:79 | As written, the output does not depend on the value table, so the literals never appear. Every other character is the delimiter |
| Findings.AsWrittenDiffersOnDisplayState | parameter/criterion/src/InclusiveCriterion.cpp:79 | For {2, 3, 4} over {a:2, b:3, c:4}, the as-written output is the control characters 2, 3 and 4 between delimiters. The corrected rendering is "a\|b\|c" |

## Left out

- The sources of `Criterion.cpp`, `Criteria.h` and `Criteria.cpp` are not part of this model. The exclusive `setState`, `stateModificationsEvent`, the description formats and the registry are modelled from the header's documentation and from the unit test's expectations.
- The exclusive-criterion error texts (too few values, several values requested, unregistered value) are this model's own wording. The contracts promise only that each is non-empty and names the criterion. The inclusive texts are the source's own.
- Exclusive `setState` with the empty set returns the criterion to its default state, as the unit test expects (lines 336-347). Requesting several values or an unregistered value is refused.
- In a modification event, the warning about unapplied changes is logged when a criterion changes while the counter is non-zero, that is, on the second change before an application (unit test lines 303-319). It is not logged on a reset.
- An inclusive criterion answers to all four match methods, because the derived class adds its methods to the base `Is`/`IsNot` (header lines 144-161, unit test lines 504-517).
- The order of a criterion's own table is an assumption of this model. The criterion keeps its values in a `std::set<Value>` (Criterion.h:163-170). The ordering of `Value` is defined in Criterion.cpp, which this model does not cover. The model takes the table in the order the client's `std::map` (CriterionInterface.h:47) iterates it, that is by literal, so listing, serialisation and the exclusive default follow the literals. The `std::includes` test of InclusiveCriterion.cpp:88 compares that table with a `std::set<int>` state, which suggests the source orders `Value` by numerical code instead. Under that order, listing, serialisation and the exclusive default would follow the codes. The unit test's tables ({a:2, b:3, c:4} and {State:1, State2:2}) sort the same way under both orders.
- The inclusive `setState` membership test is `std::includes` between the value table and the state. It is modelled as "every code of the state is registered".
- `Criteria.ListSelectionCriteria`: the unit test compares every listing with the human-readable, typed descriptions whatever flags it passes (lines 132-147). The model lists the descriptions in the requested format instead.
- Criteria are identified by position in the registry rather than by address. The registry rejects a duplicate name, and its error text is this model's own.
- Criterion.GetNumericalValue: a string of several "\|"-delimited literals is modelled as parsing to the set of their codes. The packing of that set into one `int` lives in Criterion.cpp, which this model does not cover. The legacy integer API (`setCriterionState`, `getCriterionState`) is left out for the same reason.
- Criterion.GetLiteralValue: for an inclusive criterion, CriterionInterface.h:66-69 promises a "\|"-delimited list of the literals of a packed `int`. The packing lives in Criterion.cpp, which this model does not cover, so the model translates one code to one literal only. The "\|"-delimited rendering of a whole state is `Criterion.FormattedState`.
- Strings are sequences of Unicode code points, not of bytes. For a non-ASCII name the underline of `Criterion.TitleUnderline` has one `=` per code point, where the C++ `length()` counts bytes. `Findings.LowByteChar` yields a code point, where the C++ `char` is one signed or unsigned byte.
- Numerical codes are unbounded integers, not the source's 32-bit `int`. Only the modification counter is bounded, and it wraps modulo 2^32 explicitly.
- Criterion.ParseState: its own contract only bounds the parsed state by the registered codes. That it reads a formatted state back exactly is stated separately, by `CriterionProperties.FormattedStateRoundTrip`.
- Writing the XML as a document (serialising context, document sinks, attribute escaping) and the logger's transport are outside the model. The model gives the element tree and the log lines.
- CriterionProperties.ChangeThenReset: requires the counter to be below its maximum, because a change at the maximum wraps the `uint32_t` counter to zero and the criterion then reports no modification.
- The test platform, the XML generator scripts and the memory-profiling driver are callers of this component, not part of it.
- Concurrency: none in the source; calls are sequential.

## Findings

| source | as written | input that shows it | evidently intended | confidence | as-written member | corrected member |
|---|---|---|---|---|---|---|
| parameter/criterion/src/InclusiveCriterion.cpp:79 | `formattedState += value` appends the integer code converted to one `char`, not the code's literal | inclusive criterion over {a:2, b:3, c:4} with state {2, 3, 4}: the result is the bytes 0x02 '\|' 0x03 '\|' 0x04 | the literals joined with "\|", "a\|b\|c", as the unit test expects (lines 451-455) | not executed; the test expects the literals | Findings.AsWrittenDiffersOnDisplayState | CriterionProperties.FormattedStateRoundTrip |

=== FILE: criteria.dfy ===
/** The `Criteria` registry: owns the criteria it creates, finds them by
    name, clears their modified status in bulk, lists their descriptions and
    serialises them together. Criteria are kept in creation order and their
    names are unique. The source's `Criterion*` handles become positions in
    the registry. */
module Criteria {
  import opened Outcomes
  import opened Text
  import opened CriterionInterface
  import opened Xml
  import C = Criterion

  datatype Criteria = Criteria(criteria: seq<C.Criterion>)

  /** No two criteria share a name. */
  predicate UniqueNames(s: seq<C.Criterion>)
  {
    forall i, j :: 0 <= i < j < |s| ==> s[i].name != s[j].name
  }

  /** Every criterion is well formed and names are unique. */
  predicate Valid(r: Criteria)
  {
    && (forall i :: 0 <= i < |r.criteria| ==> C.Valid(r.criteria[i]))
    && UniqueNames(r.criteria)
  }

  /** A registry holding no criterion. */
  function Empty(): (r: Criteria)
    ensures Valid(r) && |r.criteria| == 0
  {
    Criteria([])
  }

  /** Position of the criterion called `name`. */
  function IndexOf(s: seq<C.Criterion>, name: string): (r: Option<nat>)
    ensures r.Some? ==> r.value < |s| && s[r.value].name == name
    ensures r.None? ==> forall i :: 0 <= i < |s| ==> s[i].name != name
  {
    if |s| == 0 then None
    else if s[0].name == name then Some(0)
    else
      match IndexOf(s[1..], name)
      case Some(i) => Some(i + 1)
      case None => None
  }

  /** `getSelectionCriterion`: the criterion called `name`, or nothing (the
      source's `NULL` result) when there is none. */
  function GetSelectionCriterion(r: Criteria, name: string): (c: Option<C.Criterion>)
    ensures c.Some? ==> c.value in r.criteria && c.value.name == name
    ensures c.None? <==> forall i :: 0 <= i < |r.criteria| ==> r.criteria[i].name != name
  {
    match IndexOf(r.criteria, name)
    case Some(i) => Some(r.criteria[i])
    case None => None
  }

  function AlreadyExistsMessage(name: string): (m: string)
    ensures |m| > 0 && Contains(m, name)
  {
    ContainsMiddle("Criterion '", name, "' already exists");
    "Criterion '" + name + "' already exists"
  }

  /** `createExclusiveCriterion` / `createInclusiveCriterion`: builds a
      criterion and takes ownership of it. Fails with a message, leaving the
      registry as it was, when the criterion cannot be built or the name is
      taken. On success the criterion is appended and found again by name. */
  function CreateCriterion(r: Criteria, kind: C.Kind, name: string, values: Values)
    : (res: Result<(Criteria, C.Criterion)>)
    requires Valid(r)
    ensures res.Ok? <==> |values| >= C.MinValues(kind) && GetSelectionCriterion(r, name).None?
    ensures res.Err? ==> |res.error| > 0 && Contains(res.error, name)
    ensures res.Ok? ==> Valid(res.value.0)
    ensures res.Ok? ==> res.value.0.criteria == r.criteria + [res.value.1]
    ensures res.Ok? ==> res.value.1.name == name && res.value.1.kind == kind && res.value.1.values == values
    ensures res.Ok? ==> C.NewCriterion(kind, name, values) == Ok(res.value.1)
    ensures res.Ok? ==> !C.HasBeenModified(res.value.1)
    ensures res.Ok? ==> GetSelectionCriterion(res.value.0, name) == Some(res.value.1)
  {
    if GetSelectionCriterion(r, name).Some? then
      Err(AlreadyExistsMessage(name))
    else
      match C.NewCriterion(kind, name, values)
      case Err(e) => Err(e)
      case Ok(c) =>
        var next := Criteria(r.criteria + [c]);
        assert IndexOf(next.criteria, name) == Some(|r.criteria|) by {
          IndexOfAppended(r.criteria, c);
        }
        Ok((next, c))
  }

  lemma {:induction false} IndexOfAppended(s: seq<C.Criterion>, c: C.Criterion)
    requires forall i :: 0 <= i < |s| ==> s[i].name != c.name
    ensures IndexOf(s + [c], c.name) == Some(|s|)
    decreases |s|
  {
    if |s| > 0 {
      assert (s + [c])[1..] == s[1..] + [c];
      IndexOfAppended(s[1..], c);
    }
  }

  /** Sets the state of the criterion at `handle` (a set through the handle
      `create*` returned); the other criteria are untouched. */
  function SetStateOf(r: Criteria, handle: nat, newState: C.State): (res: (Criteria, C.Update))
    requires Valid(r) && handle < |r.criteria|
    ensures Valid(res.0)
    ensures res.1 == C.SetState(r.criteria[handle], newState)
    ensures res.0.criteria == r.criteria[handle := res.1.crit]
  {
    var u := C.SetState(r.criteria[handle], newState);
    (Criteria(r.criteria[handle := u.crit]), u)
  }

  /** `resetModifiedStatus` on the registry: every criterion is reset, in
      order; states and everything else are kept. */
  function ResetModifiedStatus(r: Criteria): (res: Criteria)
    requires Valid(r)
    ensures Valid(res)
    ensures |res.criteria| == |r.criteria|
    ensures forall i :: 0 <= i < |r.criteria| ==>
      && !C.HasBeenModified(res.criteria[i])
      && C.SameConstants(r.criteria[i], res.criteria[i])
      && res.criteria[i].state == r.criteria[i].state
  {
    Criteria(seq(|r.criteria|, i requires 0 <= i < |r.criteria| => C.ResetModifiedStatus(r.criteria[i])))
  }

  /** `listSelectionCriteria(humanReadable, withTypeInfo)`: one description per
      criterion, in registry order. Note the argument order is the reverse of
      `getFormattedDescription(withTypeInfo, humanReadable)`. */
  function ListSelectionCriteria(r: Criteria, humanReadable: bool, withTypeInfo: bool): (lines: seq<string>)
    ensures |lines| == |r.criteria|
    ensures forall i :: 0 <= i < |r.criteria| ==>
      lines[i] == C.Description(r.criteria[i], withTypeInfo, humanReadable)
  {
    seq(|r.criteria|, i requires 0 <= i < |r.criteria| => C.Description(r.criteria[i], withTypeInfo, humanReadable))
  }

  /** `toXml` on the registry: a `SelectionCriteria` element wrapping each
      criterion's element, in registry order. */
  function ToXml(r: Criteria): (e: Element)
    ensures |e.children| == |r.criteria|
    ensures forall i :: 0 <= i < |r.criteria| ==> e.children[i] == C.ToXml(r.criteria[i])
  {
    Element("SelectionCriteria", [],
            seq(|r.criteria|, i requires 0 <= i < |r.criteria| => C.ToXml(r.criteria[i])))
  }

  /** The registry element lists each criterion in creation order, and each
      child reads back to its criterion's name, kind, formatted state and
      value table. */
  lemma XmlListsCriteriaInOrder(r: Criteria)
    ensures ToXml(r).tag == "SelectionCriteria"
    ensures |ToXml(r).children| == |r.criteria|
    ensures forall i :: 0 <= i < |r.criteria| ==>
      C.CriterionOfXml(ToXml(r).children[i]) ==
        Some(C.XmlFields(r.criteria[i].name, r.criteria[i].kind, C.FormattedState(r.criteria[i]), r.criteria[i].values))
  {
    forall i | 0 <= i < |r.criteria|
      ensures C.CriterionOfXml(ToXml(r).children[i]) ==
        Some(C.XmlFields(r.criteria[i].name, r.criteria[i].kind, C.FormattedState(r.criteria[i]), r.criteria[i].values))
    {
      C.XmlRoundTrip(r.criteria[i]);
    }
  }

  /** After a bulk reset no criterion of the registry reports a modification,
      whatever was set before. */
  lemma ResetClearsEveryCriterion(r: Criteria, name: string)
    requires Valid(r)
    requires GetSelectionCriterion(ResetModifiedStatus(r), name).Some?
    ensures !C.HasBeenModified(GetSelectionCriterion(ResetModifiedStatus(r), name).value)
  {
    var c := GetSelectionCriterion(ResetModifiedStatus(r), name).value;
    var i :| 0 <= i < |ResetModifiedStatus(r).criteria| && ResetModifiedStatus(r).criteria[i] == c;
  }
}

=== FILE: criterion.dfy ===
/** A selection criterion: a named piece of system state with a fixed table of
    literal/numerical values, a current state (a set of codes), a table of
    named match methods and a count of unapplied modifications.

    The source's base class `Criterion` (the exclusive criterion) and its
    subclass `InclusiveCriterion` become one record tagged with its `Kind`;
    where the two differ (default state, value count, added match methods,
    validation, formatted state) the functions below branch on the tag. The
    logger becomes the list of log lines each operation returns. */
module Criterion {
  import opened Outcomes
  import opened Text
  import opened IntSets
  import opened CriterionInterface
  import opened Xml

  datatype Kind = Exclusive | Inclusive

  /** `CriterionInterface::State`: a `std::set<int>` of numerical codes. */
  type State = set<int>

  /** The modification counter is a `uint32_t`. */
  const CounterModulus: nat := 0x1_0000_0000

  type Counter = n: nat | n < 0x1_0000_0000

  /** `++` on the `uint32_t` counter, wrapping to zero past its maximum. */
  function Bump(n: Counter): (m: Counter)
    ensures (m - n - 1) % CounterModulus == 0
    ensures m > 0 <==> n < CounterModulus - 1
    ensures n < CounterModulus - 1 ==> m == n + 1
  {
    (n + 1) % CounterModulus
  }

  /** A line given to the application logger. */
  datatype LogLine = Info(text: string) | Warning(text: string)

  // ---------------------------------------------------------------------------
  // Match methods

  /** The predicates a criterion can register. */
  datatype MatchMethod = Is | IsNot | Includes | Excludes

  /** Whether the current state matches the queried one under `m`. */
  function Evaluate(m: MatchMethod, current: State, queried: State): bool
  {
    match m
    case Is => current == queried
    case IsNot => current != queried
    // `std::includes(mState, state)`: every queried code is set
    case Includes => forall x | x in queried :: x in current
    // `std::set_intersection(mState, state)` is empty
    case Excludes => current * queried == {}
  }

  /** Match methods indexed by name. */
  type MatchMethods = map<string, MatchMethod>

  /** The methods every criterion has. */
  const BaseMatchMethods: MatchMethods := map["Is" := Is, "IsNot" := IsNot]

  /** The methods an inclusive criterion adds to the base ones. */
  const InclusiveMatchMethods: MatchMethods := map["Includes" := Includes, "Excludes" := Excludes]

  /** The method table a criterion of `kind` is built with: the base methods
      plus those of the derived kind. */
  function MatchMethodsOf(kind: Kind): MatchMethods
  {
    match kind
    case Exclusive => BaseMatchMethods
    case Inclusive => BaseMatchMethods + InclusiveMatchMethods
  }

  /** A derived criterion's match methods are added to the base ones, not
      substituted for them. */
  lemma DerivedMatchMethodsAreAdded()
    ensures MatchMethodsOf(Exclusive).Keys == {"Is", "IsNot"}
    ensures MatchMethodsOf(Inclusive).Keys == {"Is", "IsNot", "Includes", "Excludes"}
    ensures forall m :: m in MatchMethodsOf(Exclusive) ==>
      m in MatchMethodsOf(Inclusive) && MatchMethodsOf(Inclusive)[m] == MatchMethodsOf(Exclusive)[m]
  {
  }

  // ---------------------------------------------------------------------------
  // The criterion record

  /** Fields: `kind`, `name`, `values`, `matchMethods` and `defaultState` are
      const in the source; only `state` and `modifications` change. */
  datatype Criterion = Criterion(
    kind: Kind,
    name: string,
    values: Values,
    matchMethods: MatchMethods,
    defaultState: State,
    state: State,
    modifications: Counter)

  /** The fewest values a criterion of `kind` may be built with. */
  function MinValues(kind: Kind): nat
  {
    match kind
    case Exclusive => 2
    case Inclusive => 1
  }

  /** The default state: the first value of the table for an exclusive
      criterion, nothing for an inclusive one. */
  function DefaultStateOf(kind: Kind, values: Values): State
  {
    match kind
    case Exclusive => if |values| > 0 then {values[0].numerical} else {}
    case Inclusive => {}
  }

  /** The invariant construction establishes and every operation keeps. */
  predicate Valid(c: Criterion)
  {
    && |c.values| >= MinValues(c.kind)
    && c.matchMethods == MatchMethodsOf(c.kind)
    && c.defaultState == DefaultStateOf(c.kind, c.values)
    && c.state <= Codes(c.values)
    && (c.kind == Exclusive ==> |c.state| == 1)
  }

  /** `b` carries the same const fields as `a`. */
  predicate SameConstants(a: Criterion, b: Criterion)
  {
    && a.kind == b.kind
    && a.name == b.name
    && a.values == b.values
    && a.matchMethods == b.matchMethods
    && a.defaultState == b.defaultState
  }

  function KindName(kind: Kind): string
  {
    match kind
    case Exclusive => "Exclusive"
    case Inclusive => "Inclusive"
  }

  /** The message of the `InvalidCriterionError` thrown by a constructor. */
  function NotEnoughValuesMessage(kind: Kind, name: string): (m: string)
    ensures |m| > 0 && Contains(m, name)
  {
    var kindWord := if kind.Exclusive? then "exclusive" else "inclusive";
    var prefix := "Not enough values were provided for " + kindWord + " criterion '";
    var count := NatToString(MinValues(kind));
    var suffix := "' which needs at least " + count + " values";
    ContainsMiddle(prefix, name, suffix);
    assert prefix + name + suffix == prefix + name + "' which needs at least " + count + " values";
    prefix + name + "' which needs at least " + count + " values"
  }

  /** The constructors of `Criterion` and `InclusiveCriterion`. Too few values
      is the `InvalidCriterionError` exception. */
  function NewCriterion(kind: Kind, name: string, values: Values): (r: Result<Criterion>)
    ensures r.Ok? <==> |values| >= MinValues(kind)
    ensures r.Err? ==> |r.error| > 0 && Contains(r.error, name)
    ensures r.Ok? ==> Valid(r.value)
    ensures r.Ok? ==> r.value.kind == kind && r.value.name == name && r.value.values == values
    ensures r.Ok? ==> r.value.state == r.value.defaultState && !HasBeenModified(r.value)
    ensures r.Ok? && kind == Exclusive ==> r.value.state == {values[0].numerical}
    ensures r.Ok? && kind == Inclusive ==> r.value.state == {}
  {
    if |values| < MinValues(kind) then
      Err(NotEnoughValuesMessage(kind, name))
    else
      var default := DefaultStateOf(kind, values);
      assert values[0] in values;
      Ok(Criterion(kind, name, values, MatchMethodsOf(kind), default, default, 0))
  }

  // ---------------------------------------------------------------------------
  // Queries

  /** `getCriterionName`. */
  function GetCriterionName(c: Criterion): string
  {
    c.name
  }

  /** `getState`. */
  function GetState(c: Criterion): State
  {
    c.state
  }

  /** `isInclusive`: overridden to true by the inclusive subclass only. */
  function IsInclusive(c: Criterion): bool
  {
    c.kind.Inclusive?
  }

  /** Criteria report their kind as built: `isInclusive()` is true for an
      inclusive criterion and false for an exclusive one. */
  lemma IsInclusiveAsBuilt(kind: Kind, name: string, values: Values)
    requires NewCriterion(kind, name, values).Ok?
    ensures IsInclusive(NewCriterion(kind, name, values).value) <==> kind == Inclusive
    ensures GetCriterionName(NewCriterion(kind, name, values).value) == name
  {
  }

  /** `hasBeenModified`: a value-changing set happened since the last reset. */
  function HasBeenModified(c: Criterion): bool
  {
    c.modifications > 0
  }

  /** `resetModifiedStatus`: clears the counter and nothing else. */
  function ResetModifiedStatus(c: Criterion): (r: Criterion)
    ensures !HasBeenModified(r)
    ensures SameConstants(c, r) && r.state == c.state
    ensures Valid(c) ==> Valid(r)
  {
    c.(modifications := 0)
  }

  /** `isValueAvailable`: `code` is registered in the table. */
  function IsValueAvailable(c: Criterion, code: int): (r: bool)
    ensures r <==> exists l :: ValuePair(l, code) in c.values
  {
    var found := LiteralValue(c.values, code);
    assert found.None? ==> forall l :: ValuePair(l, code) in c.values ==> code in Codes(c.values);
    found.Some?
  }

  /** `getNumericalValue` for a single literal. The output argument is the
      second component; on failure it keeps the value `output` it had. */
  function GetNumericalValue(c: Criterion, literal: string, output: int): (r: (bool, int))
    ensures r.0 <==> exists v :: ValuePair(literal, v) in c.values
    ensures r.0 ==> ValuePair(literal, r.1) in c.values
    ensures !r.0 ==> r.1 == output
  {
    match NumericalValue(c.values, literal)
    case Some(v) => (true, v)
    case None => (false, output)
  }

  /** `getLiteralValue`. The output argument is the second component; on
      failure it keeps the value `output` it had. */
  function GetLiteralValue(c: Criterion, code: int, output: string): (r: (bool, string))
    ensures r.0 <==> code in Codes(c.values)
    ensures r.0 ==> ValuePair(r.1, code) in c.values
    ensures !r.0 ==> r.1 == output
  {
    match LiteralValue(c.values, code)
    case Some(l) => (true, l)
    case None => (false, output)
  }

  /** The codes of literal tokens, if every token is registered. */
  function TranslateTokens(t: Values, tokens: seq<string>): (r: Option<State>)
    ensures r.Some? <==> forall i :: 0 <= i < |tokens| ==> NumericalValue(t, tokens[i]).Some?
    ensures r.Some? ==> forall x :: x in r.value <==>
      exists i :: 0 <= i < |tokens| && NumericalValue(t, tokens[i]) == Some(x)
  {
    if |tokens| == 0 then Some({})
    else
      match NumericalValue(t, tokens[0])
      case None => None
      case Some(v) =>
        match TranslateTokens(t, tokens[1..])
        case None => None
        case Some(rest) =>
          assert forall i :: 1 <= i < |tokens| ==> tokens[i] == tokens[1..][i - 1];
          Some({v} + rest)
  }

  /** The state a literal text denotes: for an inclusive criterion several
      literals delimited by "|", for an exclusive one a single literal. */
  function ParseState(c: Criterion, text: string): (r: Option<State>)
    ensures r.Some? ==> r.value <= Codes(c.values)
  {
    var tokens := if c.kind.Inclusive? then Split(text, '|') else [text];
    var r := TranslateTokens(c.values, tokens);
    assert r.Some? ==> forall x :: x in r.value ==> x in Codes(c.values) by {
      if r.Some? {
        forall x | x in r.value ensures x in Codes(c.values) {
          var i :| 0 <= i < |tokens| && NumericalValue(c.values, tokens[i]) == Some(x);
          assert ValuePair(tokens[i], x) in c.values;
        }
      }
    }
    r
  }

  // ---------------------------------------------------------------------------
  // Setting the state

  /** The state a set request asks for. An exclusive criterion cannot hold
      nothing: requesting the empty state requests its default state. */
  function Requested(c: Criterion, newState: State): State
  {
    if c.kind.Exclusive? && newState == {} then c.defaultState else newState
  }

  /** A state the criterion may hold: registered codes only, and at most one
      of them for an exclusive criterion. */
  ghost predicate Admissible(c: Criterion, s: State)
  {
    && (forall x | x in s :: exists l :: ValuePair(l, x) in c.values)
    && (c.kind.Exclusive? ==> |s| <= 1)
  }

  /** The outcome of `setState`: the criterion afterwards, the lines logged,
      and the error message when the call returned false. */
  datatype Update = Update(crit: Criterion, log: seq<LogLine>, error: Option<string>)

  /** The info line logged on every change. */
  function ChangedEventLine(c: Criterion): LogLine
  {
    Info("Selection criterion changed event: " + Description(c, false, false))
  }

  /** The warning logged when a criterion changes again before the previous
      change was applied. */
  function UnappliedChangesLine(name: string, count: nat): LogLine
  {
    Warning("Selection criterion '" + name + "' has been modified " + NatToString(count)
            + " time(s) without any configuration application")
  }

  /** `stateModificationsEvent`: logs the change, warns when earlier changes
      are still unapplied, and counts the change. */
  function ModificationEvent(c: Criterion): (r: (Criterion, seq<LogLine>))
    ensures SameConstants(c, r.0) && r.0.state == c.state
    ensures r.0.modifications == Bump(c.modifications)
    ensures |r.1| >= 1 && r.1[0] == ChangedEventLine(c)
    ensures |r.1| == if c.modifications > 0 then 2 else 1
    ensures |r.1| == 2 ==> r.1[1] == UnappliedChangesLine(c.name, c.modifications)
  {
    var info := [ChangedEventLine(c)];
    var warning := if c.modifications > 0 then [UnappliedChangesLine(c.name, c.modifications)] else [];
    (c.(modifications := Bump(c.modifications)), info + warning)
  }

  function RejectionMessage(c: Criterion, reason: string): (m: string)
    ensures |m| > 0 && Contains(m, c.name)
  {
    var prefix := KindName(c.kind) + " criterion '";
    var suffix := "' can't be set because " + reason;
    ContainsMiddle(prefix, c.name, suffix);
    assert prefix + c.name + suffix == prefix + c.name + "' can't be set because " + reason;
    KindName(c.kind) + " criterion '" + c.name + "' can't be set because " + reason
  }

  /** `setState`. Setting the current state again is a success with no
      effect; a change to an inadmissible state fails and leaves the criterion
      as it was; any other change assigns the state and records exactly one
      modification event. */
  function SetState(c: Criterion, newState: State): (r: Update)
    requires Valid(c)
    ensures Valid(r.crit) && SameConstants(c, r.crit)
    ensures r.error.None? <==> Admissible(c, Requested(c, newState))
    ensures Requested(c, newState) == c.state ==> r == Update(c, [], None)
    ensures r.error.Some? ==> r.crit == c && r.log == []
    ensures r.error.Some? ==> |r.error.value| > 0 && Contains(r.error.value, c.name)
    ensures r.error.None? ==> r.crit.state == Requested(c, newState)
    ensures r.error.None? && Requested(c, newState) != c.state ==>
      && r.crit.modifications == Bump(c.modifications)
      && |r.log| >= 1 && r.log[0] == ChangedEventLine(r.crit)
      && |r.log| == (if c.modifications > 0 then 2 else 1)
      && (|r.log| == 2 ==> r.log[1] == UnappliedChangesLine(c.name, c.modifications))
  {
    var requested := Requested(c, newState);
    CurrentStateIsAdmissible(c);
    RegisteredIsAdmissible(c, requested);
    if requested == c.state then
      Update(c, [], None)
    else if c.kind.Exclusive? && |requested| > 1 then
      Update(c, [], Some(RejectionMessage(c, "more than one value was requested")))
    else if !(requested <= Codes(c.values)) then
      Update(c, [], Some(RejectionMessage(c, "some values are not registered")))
    else
      var event := ModificationEvent(c.(state := requested));
      Update(event.0, event.1, None)
  }

  lemma CurrentStateIsAdmissible(c: Criterion)
    requires Valid(c)
    ensures Admissible(c, c.state)
  {
    forall x | x in c.state ensures exists l :: ValuePair(l, x) in c.values {
      var p :| p in c.values && p.numerical == x;
      assert ValuePair(p.literal, x) == p;
    }
  }

  lemma RegisteredIsAdmissible(c: Criterion, s: State)
    ensures s <= Codes(c.values) <==> forall x | x in s :: exists l :: ValuePair(l, x) in c.values
  {
    if s <= Codes(c.values) {
      forall x | x in s ensures exists l :: ValuePair(l, x) in c.values {
        var p :| p in c.values && p.numerical == x;
        assert ValuePair(p.literal, x) == p;
      }
    }
    if forall x | x in s :: exists l :: ValuePair(l, x) in c.values {
      forall x | x in s ensures x in Codes(c.values) {
        var l :| ValuePair(l, x) in c.values;
        assert ValuePair(l, x).numerical == x;
      }
    }
  }

  // ---------------------------------------------------------------------------
  // Matching

  /** `isMatchMethodAvailable`. */
  function IsMatchMethodAvailable(c: Criterion, methodName: string): bool
  {
    methodName in c.matchMethods
  }

  /** `match`: evaluates the named method on the current state. An unknown
      method name is an `std::out_of_range` error, not a false result. */
  function Match(c: Criterion, methodName: string, queried: State): (r: Result<bool>)
    ensures r.Err? <==> !IsMatchMethodAvailable(c, methodName)
    ensures Valid(c) && methodName == "Is" ==> r == Ok(c.state == queried)
    ensures Valid(c) && methodName == "IsNot" ==> r == Ok(c.state != queried)
    ensures Valid(c) && c.kind.Inclusive? && methodName == "Includes" ==> r == Ok(queried <= c.state)
    ensures Valid(c) && c.kind.Inclusive? && methodName == "Excludes" ==> r == Ok(queried !! c.state)
  {
    InclusiveMethodTable();
    if methodName in c.matchMethods then Ok(Evaluate(c.matchMethods[methodName], c.state, queried))
    else Err("map::at")
  }

  lemma InclusiveMethodTable()
    ensures MatchMethodsOf(Inclusive)["Includes"] == Includes
    ensures MatchMethodsOf(Inclusive)["Excludes"] == Excludes
    ensures forall a: State, b: State :: Evaluate(Includes, a, b) <==> b <= a
    ensures forall a: State, b: State :: Evaluate(Excludes, a, b) <==> b !! a
  {
    forall a: State, b: State ensures Evaluate(Includes, a, b) <==> b <= a {
      if Evaluate(Includes, a, b) {
        forall x | x in b ensures x in a {
        }
      }
    }
    forall a: State, b: State ensures Evaluate(Excludes, a, b) <==> b !! a {
      if a * b == {} {
        forall x | x in b ensures x !in a {
          assert x in a ==> x in a * b;
        }
      }
      if b !! a {
        forall x ensures x !in a * b {
        }
        assert a * b == {};
      }
    }
  }

  /** Which names a criterion answers to, by kind: an exclusive criterion has
      exactly `Is` and `IsNot`, an inclusive one has all four methods. */
  lemma AvailableMatchMethods(c: Criterion, methodName: string)
    requires Valid(c)
    ensures c.kind.Exclusive? ==> (IsMatchMethodAvailable(c, methodName) <==> methodName in {"Is", "IsNot"})
    ensures c.kind.Inclusive? ==>
      (IsMatchMethodAvailable(c, methodName) <==> methodName in {"Is", "IsNot", "Includes", "Excludes"})
  {
    DerivedMatchMethodsAreAdded();
  }

  // ---------------------------------------------------------------------------
  // Formatting

  /** The literal of `code`, or the empty string when it has none. */
  function LiteralOf(t: Values, code: int): string
  {
    LiteralValue(t, code).GetOr("")
  }

  /** The literals of `codes`, position by position. */
  function LiteralsOfCodes(t: Values, codes: seq<int>): (r: seq<string>)
    ensures |r| == |codes|
    ensures forall i :: 0 <= i < |codes| ==> r[i] == LiteralOf(t, codes[i])
  {
    seq(|codes|, i requires 0 <= i < |codes| => LiteralOf(t, codes[i]))
  }

  /** `getFormattedState`. Exclusive: the literal of the single state value.
      Inclusive: "none" for the empty state, otherwise the literals of the
      state's codes in ascending code order, joined with "|". */
  function FormattedState(c: Criterion): (r: string)
    ensures c.kind.Inclusive? && c.state == {} ==> r == "none"
    ensures Valid(c) && c.kind.Exclusive? ==> exists v :: v in c.state && ValuePair(r, v) in c.values
  {
    match c.kind
    case Inclusive =>
      if c.state == {} then "none"
      else Join(LiteralsOfCodes(c.values, Ascending(c.state)), "|")
    case Exclusive =>
      if c.state == {} then ""
      else
        var v := Least(c.state);
        assert Valid(c) ==> v in Codes(c.values);
        LiteralOf(c.values, v)
  }

  /** `listPossibleValues`: the literals in table order, in braces. */
  function ListPossibleValues(c: Criterion): string
  {
    "{" + Join(Literals(c.values), ", ") + "}"
  }

  /** `getFormattedDescription(withTypeInfo, humanReadable)`. */
  function Description(c: Criterion, withTypeInfo: bool, humanReadable: bool): string
  {
    var kind := KindName(c.kind);
    var state := FormattedState(c);
    if humanReadable then
      if withTypeInfo then
        var title := c.name + ":";
        "\n" + title + "\n" + Repeat('=', |title|)
        + "\nPossible states (" + kind + "): " + ListPossibleValues(c)
        + "\nCurrent state = " + state
      else
        c.name + " = " + state
    else
      if withTypeInfo then
        "Criterion name: " + c.name + ", type kind: " + kind + ", current state: " + state
        + ", states: " + ListPossibleValues(c)
      else
        "Criterion name: " + c.name + ", current state: " + state
  }

  /** Every description names the criterion and shows its formatted state;
      the typed ones also name its kind and list its possible values. All but
      the typed one-line form end with the state, which ends with the list. */
  lemma DescriptionsShowNameAndState(c: Criterion, withTypeInfo: bool, humanReadable: bool)
    ensures var d := Description(c, withTypeInfo, humanReadable);
      && Contains(d, c.name)
      && Contains(d, FormattedState(c))
      && (withTypeInfo ==> Contains(d, KindName(c.kind)) && Contains(d, ListPossibleValues(c)))
      && (withTypeInfo && !humanReadable ==> EndsWith(d, ListPossibleValues(c)))
      && (!withTypeInfo || humanReadable ==> EndsWith(d, FormattedState(c)))
  {
    var kind := KindName(c.kind);
    var state := FormattedState(c);
    var list := ListPossibleValues(c);
    ContainsSelf(c.name);
    ContainsSelf(state);
    ContainsSelf(kind);
    ContainsSelf(list);
    if humanReadable && withTypeInfo {
      var title := c.name + ":";
      var h1 := "\n" + title;
      var h2 := h1 + "\n";
      var h3 := h2 + Repeat('=', |title|);
      var h4 := h3 + "\nPossible states (";
      var h5 := h4 + kind;
      var h6 := h5 + "): ";
      var h7 := h6 + list;
      var h8 := h7 + "\nCurrent state = ";
      ContainsLeft(c.name, ":", c.name);
      ContainsRight("\n", title, c.name);
      ContainsLeft(h1, "\n", c.name);
      ContainsLeft(h2, Repeat('=', |title|), c.name);
      ContainsLeft(h3, "\nPossible states (", c.name);
      ContainsLeft(h4, kind, c.name);
      ContainsRight(h4, kind, kind);
      ContainsLeft(h5, "): ", c.name);
      ContainsLeft(h5, "): ", kind);
      ContainsLeft(h6, list, c.name);
      ContainsLeft(h6, list, kind);
      ContainsRight(h6, list, list);
      ContainsLeft(h7, "\nCurrent state = ", c.name);
      ContainsLeft(h7, "\nCurrent state = ", kind);
      ContainsLeft(h7, "\nCurrent state = ", list);
      ContainsLeft(h8, state, c.name);
      ContainsLeft(h8, state, kind);
      ContainsLeft(h8, state, list);
      ContainsRight(h8, state, state);
    } else if humanReadable {
      ContainsLeft(c.name, " = ", c.name);
      ContainsLeft(c.name + " = ", state, c.name);
      ContainsRight(c.name + " = ", state, state);
    } else if withTypeInfo {
      var s1 := "Criterion name: " + c.name;
      var s2 := s1 + ", type kind: ";
      var s3 := s2 + kind;
      var s4 := s3 + ", current state: ";
      var s5 := s4 + state;
      var s6 := s5 + ", states: ";
      ContainsRight("Criterion name: ", c.name, c.name);
      ContainsLeft(s1, ", type kind: ", c.name);
      ContainsLeft(s2, kind, c.name);
      ContainsRight(s2, kind, kind);
      ContainsLeft(s3, ", current state: ", c.name);
      ContainsLeft(s3, ", current state: ", kind);
      ContainsLeft(s4, state, c.name);
      ContainsLeft(s4, state, kind);
      ContainsRight(s4, state, state);
      ContainsLeft(s5, ", states: ", c.name);
      ContainsLeft(s5, ", states: ", kind);
      ContainsLeft(s5, ", states: ", state);
      ContainsLeft(s6, list, c.name);
      ContainsLeft(s6, list, kind);
      ContainsLeft(s6, list, state);
      ContainsRight(s6, list, list);
    } else {
      var s1 := "Criterion name: " + c.name;
      ContainsRight("Criterion name: ", c.name, c.name);
      ContainsLeft(s1, ", current state: ", c.name);
      ContainsLeft(s1 + ", current state: ", state, c.name);
      ContainsRight(s1 + ", current state: ", state, state);
    }
  }

  /** The human-readable description with type information opens with the
      title line "<name>:" underlined by exactly as many '=' as the title
      has characters, each on its own line. */
  lemma TitleUnderline(c: Criterion)
    ensures var d := Description(c, true, true);
      var n := |c.name|;
      && |d| > 2 * n + 4
      && d[0] == '\n' && d[1..n + 2] == c.name + ":" && d[n + 2] == '\n'
      && d[n + 3..2 * n + 4] == Repeat('=', n + 1)
      && d[2 * n + 4] == '\n'
  {
    var title := c.name + ":";
    var h3 := "\n" + title + "\n" + Repeat('=', |title|);
    var h4 := h3 + "\nPossible states (";
    var d := Description(c, true, true);
    var rest := d[|h4|..];
    assert d == h4 + rest;
    assert d[..|h4|] == h4;
    assert h4[|h3|] == '\n';
  }

  // ---------------------------------------------------------------------------
  // XML

  /** The `ValuePair` element of one table entry. */
  function PairElement(p: ValuePair): Element
  {
    Element("ValuePair", [Attribute("Literal", p.literal), Attribute("Numerical", IntToString(p.numerical))], [])
  }

  /** One `ValuePair` element per table entry, in table order. */
  function ValuePairElements(t: seq<ValuePair>): (r: seq<Element>)
    ensures |r| == |t|
    ensures forall i :: 0 <= i < |t| ==> r[i] == PairElement(t[i])
  {
    seq(|t|, i requires 0 <= i < |t| => PairElement(t[i]))
  }

  /** `toXml`: a `SelectionCriterion` element with the `Value`, `Name` and
      `Kind` attributes and one `ValuePair` child per table entry, in table
      order (what it carries is read back by `XmlRoundTrip`). */
  function ToXml(c: Criterion): (e: Element)
    ensures e.tag == "SelectionCriterion"
    ensures |e.attributes| == 3
    ensures |e.children| == |c.values|
    ensures forall i :: 0 <= i < |c.values| ==> e.children[i] == PairElement(c.values[i])
  {
    Element("SelectionCriterion",
            [Attribute("Value", FormattedState(c)), Attribute("Name", c.name),
             Attribute("Kind", KindName(c.kind))],
            ValuePairElements(c.values))
  }

  /** Reads a value table back from `ValuePair` elements. */
  function ValuePairsOfXml(es: seq<Element>): Option<seq<ValuePair>>
  {
    if |es| == 0 then Some([])
    else
      var e := es[0];
      match (AttributeValue(e.attributes, "Literal"), AttributeValue(e.attributes, "Numerical"))
      case (Some(l), Some(n)) =>
        (match (ParseInt(n), ValuePairsOfXml(es[1..]))
         case (Some(v), Some(rest)) => if e.tag == "ValuePair" then Some([ValuePair(l, v)] + rest) else None
         case _ => None)
      case _ => None
  }

  function KindOfName(s: string): Option<Kind>
  {
    if s == "Exclusive" then Some(Exclusive)
    else if s == "Inclusive" then Some(Inclusive)
    else None
  }

  lemma {:induction false} ValuePairsRoundTrip(t: seq<ValuePair>)
    ensures ValuePairsOfXml(ValuePairElements(t)) == Some(t)
    decreases |t|
  {
    if |t| > 0 {
      var es := ValuePairElements(t);
      PairElementRoundTrip(t[0]);
      ValuePairsRoundTrip(t[1..]);
      assert es[1..] == ValuePairElements(t[1..]);
      assert [t[0]] + t[1..] == t;
    }
  }

  /** One `ValuePair` element reads back to its entry. */
  lemma PairElementRoundTrip(p: ValuePair)
    ensures PairElement(p).tag == "ValuePair"
    ensures AttributeValue(PairElement(p).attributes, "Literal") == Some(p.literal)
    ensures AttributeValue(PairElement(p).attributes, "Numerical").Some?
    ensures ParseInt(AttributeValue(PairElement(p).attributes, "Numerical").value) == Some(p.numerical)
  {
    IntToStringRoundTrip(p.numerical);
  }

  /** What a `SelectionCriterion` element records of a criterion: its name,
      kind, formatted state and value table. */
  datatype XmlFields = XmlFields(name: string, kind: Kind, formattedState: string, values: seq<ValuePair>)

  /** Reads a `SelectionCriterion` element back; nothing when it is not one
      or an attribute or value pair is missing or malformed. */
  function CriterionOfXml(e: Element): Option<XmlFields>
  {
    if e.tag != "SelectionCriterion" then None
    else
      match (AttributeValue(e.attributes, "Name"), AttributeValue(e.attributes, "Value"),
             AttributeValue(e.attributes, "Kind"))
      case (Some(name), Some(state), Some(k)) =>
        (match (KindOfName(k), ValuePairsOfXml(e.children))
         case (Some(kind), Some(t)) => Some(XmlFields(name, kind, state, t))
         case _ => None)
      case _ => None
  }

  /** The XML of a criterion reads back to its name, kind, formatted state and
      value table, entry for entry and in order. */
  lemma XmlRoundTrip(c: Criterion)
    ensures CriterionOfXml(ToXml(c)) == Some(XmlFields(c.name, c.kind, FormattedState(c), c.values))
  {
    CriterionAttributes(FormattedState(c), c.name, KindName(c.kind));
    KindNameRoundTrip(c.kind);
    ValuePairsRoundTrip(c.values);
  }

  lemma CriterionAttributes(value: string, name: string, kind: string)
    ensures var attributes := [Attribute("Value", value), Attribute("Name", name), Attribute("Kind", kind)];
      && AttributeValue(attributes, "Value") == Some(value)
      && AttributeValue(attributes, "Name") == Some(name)
      && AttributeValue(attributes, "Kind") == Some(kind)
  {
    var attributes := [Attribute("Value", value), Attribute("Name", name), Attribute("Kind", kind)];
    assert attributes[1..] == [Attribute("Name", name), Attribute("Kind", kind)];
    assert attributes[1..][1..] == [Attribute("Kind", kind)];
    assert "Value"[0] != "Name"[0] && "Value"[0] != "Kind"[0] && "Name"[0] != "Kind"[0];
  }

  lemma KindNameRoundTrip(kind: Kind)
    ensures KindOfName(KindName(kind)) == Some(kind)
  {
    assert "Inclusive"[0] != "Exclusive"[0];
  }
}

=== FILE: criterion_interface.dfy ===
/** The client-facing value table of a criterion: the `Values` type, a
    `std::map<std::string, int>` from literal names to numerical codes, and the
    two translations between them. A `std::map` is a sequence of entries whose
    keys are strictly ascending in `std::string` order; that is how it is
    represented here, so iteration order (listing, serialisation, the exclusive
    default) is the lexicographic order of the literals. */
module CriterionInterface {
  import opened Outcomes

  /** One entry of the table: a literal name and its numerical code. */
  datatype ValuePair = ValuePair(literal: string, numerical: int)

  /** `std::string` ordering: character by character, a proper prefix first. */
  predicate LiteralLess(a: string, b: string)
    decreases |a|
  {
    if |a| == 0 then |b| > 0
    else if |b| == 0 then false
    else if a[0] != b[0] then a[0] < b[0]
    else LiteralLess(a[1..], b[1..])
  }

  lemma {:induction false} LiteralLessIrreflexive(a: string)
    ensures !LiteralLess(a, a)
    decreases |a|
  {
    if |a| > 0 {
      LiteralLessIrreflexive(a[1..]);
    }
  }

  /** The entries are ordered as a `std::map` keeps them. */
  predicate IsValueMap(t: seq<ValuePair>)
  {
    forall i, j :: 0 <= i < j < |t| ==> LiteralLess(t[i].literal, t[j].literal)
  }

  /** `CriterionInterface::Values`. */
  type Values = t: seq<ValuePair> | IsValueMap(t) witness []

  /** Literals are unique keys of the table. */
  lemma LiteralsAreKeys(t: Values)
    ensures forall i, j :: 0 <= i < |t| && 0 <= j < |t| && i != j ==> t[i].literal != t[j].literal
  {
    forall i, j | 0 <= i < |t| && 0 <= j < |t| && i != j
      ensures t[i].literal != t[j].literal
    {
      LiteralLessIrreflexive(t[i].literal);
      if i < j {
        assert LiteralLess(t[i].literal, t[j].literal);
      } else {
        assert LiteralLess(t[j].literal, t[i].literal);
      }
    }
  }

  /** The registered numerical codes. */
  function Codes(t: seq<ValuePair>): set<int>
  {
    set p | p in t :: p.numerical
  }

  /** The literals in table order. */
  function Literals(t: seq<ValuePair>): (r: seq<string>)
    ensures |r| == |t|
    ensures forall i :: 0 <= i < |t| ==> r[i] == t[i].literal
  {
    seq(|t|, i requires 0 <= i < |t| => t[i].literal)
  }

  /** No two entries share a code, so the table is a bijection. The `Values`
      type does not enforce this: two literals may carry the same code. */
  predicate UniqueCodes(t: seq<ValuePair>)
  {
    forall i, j :: 0 <= i < |t| && 0 <= j < |t| && i != j ==> t[i].numerical != t[j].numerical
  }

  /** Walks the table looking for `literal` (the map's `find`). */
  function FindLiteral(t: seq<ValuePair>, literal: string): (r: Option<int>)
    ensures r.Some? ==> ValuePair(literal, r.value) in t
    ensures r.None? ==> forall v :: ValuePair(literal, v) !in t
  {
    if |t| == 0 then None
    else if t[0].literal == literal then Some(t[0].numerical)
    else FindLiteral(t[1..], literal)
  }

  /** Literal to numerical translation: the code registered under `literal`,
      or nothing when the literal is unknown. */
  function NumericalValue(t: Values, literal: string): (r: Option<int>)
    ensures forall v :: r == Some(v) <==> ValuePair(literal, v) in t
  {
    var r := FindLiteral(t, literal);
    LiteralsAreKeys(t);
    r
  }

  /** Numerical to literal translation: the first literal, in table order,
      registered with `code`, or nothing when no literal carries it. */
  function LiteralValue(t: seq<ValuePair>, code: int): (r: Option<string>)
    ensures r.Some? ==> ValuePair(r.value, code) in t
    ensures r.None? <==> code !in Codes(t)
  {
    if |t| == 0 then None
    else if t[0].numerical == code then Some(t[0].literal)
    else
      var r := LiteralValue(t[1..], code);
      assert Codes(t) == {t[0].numerical} + Codes(t[1..]) by {
        assert t == [t[0]] + t[1..];
      }
      r
  }

  /** Translating a code to its literal and back gives the code again; this
      needs no uniqueness of codes because literals are keys. */
  lemma NumericalLiteralRoundTrip(t: Values, code: int)
    requires code in Codes(t)
    ensures LiteralValue(t, code).Some?
    ensures NumericalValue(t, LiteralValue(t, code).value) == Some(code)
  {
  }

  /** With unique codes, translating a literal to its code and back gives the
      literal again. */
  lemma {:induction false} LiteralNumericalRoundTrip(t: Values, literal: string)
    requires UniqueCodes(t)
    requires NumericalValue(t, literal).Some?
    ensures LiteralValue(t, NumericalValue(t, literal).value) == Some(literal)
  {
    var code := NumericalValue(t, literal).value;
    var back := LiteralValue(t, code);
    assert back.Some?;
    var i :| 0 <= i < |t| && t[i] == ValuePair(literal, code);
    var j :| 0 <= j < |t| && t[j] == ValuePair(back.value, code);
    assert i == j;
  }

  /** Every constructed pair translates both ways (the bijectivity the unit
      test checks for each entry). */
  lemma PairsTranslate(t: Values, i: nat)
    requires UniqueCodes(t)
    requires i < |t|
    ensures NumericalValue(t, t[i].literal) == Some(t[i].numerical)
    ensures LiteralValue(t, t[i].numerical) == Some(t[i].literal)
  {
    assert t[i] in t;
    LiteralNumericalRoundTrip(t, t[i].literal);
  }
}

=== FILE: criterion_properties.dfy ===
/** Properties that relate several calls on one criterion: idempotent sets,
    the modified/clean status cycle, and translating the formatted state back
    into the state. */
module CriterionProperties {
  import opened Outcomes
  import opened Text
  import opened IntSets
  import opened CriterionInterface
  import opened Criterion

  /** Setting a state twice in a row: the second call succeeds and changes
      nothing, logs nothing and counts no modification. */
  lemma SetStateIdempotent(c: Criterion, s: State)
    requires Valid(c)
    requires SetState(c, s).error.None?
    ensures SetState(SetState(c, s).crit, s) == Update(SetState(c, s).crit, [], None)
  {
  }

  /** A successful set either leaves the counter alone (no change) or counts
      exactly one modification; a failed set leaves everything alone. */
  lemma SetStateCountsAtMostOne(c: Criterion, s: State)
    requires Valid(c)
    ensures SetState(c, s).crit.modifications in {c.modifications, Bump(c.modifications)}
    ensures SetState(c, s).crit.modifications == Bump(c.modifications) <==>
      (SetState(c, s).error.None? && Requested(c, s) != c.state)
  {
    BumpChanges(c.modifications);
  }

  lemma BumpChanges(n: Counter)
    ensures Bump(n) != n
  {
    assert (Bump(n) - n - 1) % CounterModulus == 0;
  }

  /** A set that changes the state marks the criterion modified (short of the
      32-bit counter wrapping), and a reset then marks it clean again with the
      state kept. */
  lemma ChangeThenReset(c: Criterion, s: State)
    requires Valid(c)
    requires c.modifications < CounterModulus - 1
    requires s != {} && s != c.state && s <= Codes(c.values)
    requires c.kind.Exclusive? ==> |s| == 1
    ensures SetState(c, s).error.None?
    ensures HasBeenModified(SetState(c, s).crit)
    ensures !HasBeenModified(ResetModifiedStatus(SetState(c, s).crit))
    ensures ResetModifiedStatus(SetState(c, s).crit).state == s
  {
    RegisteredIsAdmissible(c, s);
  }

  /** An exclusive criterion never holds more than one value: asking for
      several fails and leaves it as it was. */
  lemma ExclusiveRejectsSeveralValues(c: Criterion, s: State)
    requires Valid(c) && c.kind.Exclusive?
    requires |s| > 1
    ensures SetState(c, s).error.Some?
    ensures SetState(c, s).crit == c && SetState(c, s).log == []
  {
  }

  /** A state naming an unregistered code is refused, whatever the kind, and
      the criterion stays as it was (modified status included). */
  lemma UnregisteredValueRejected(c: Criterion, s: State, code: int)
    requires Valid(c)
    requires code in s && code !in Codes(c.values)
    ensures SetState(c, s).error.Some?
    ensures SetState(c, s).crit == c
    ensures HasBeenModified(SetState(c, s).crit) == HasBeenModified(c)
  {
    forall l ensures ValuePair(l, code) !in c.values {
      assert ValuePair(l, code) in c.values ==> code in Codes(c.values);
    }
  }

  /** No literal of the table contains the character `d`. */
  predicate LiteralsFreeOf(t: seq<ValuePair>, d: char)
  {
    forall i :: 0 <= i < |t| ==> d !in t[i].literal
  }

  lemma LiteralOfRegistered(t: Values, code: int)
    requires code in Codes(t)
    ensures ValuePair(LiteralOf(t, code), code) in t
    ensures NumericalValue(t, LiteralOf(t, code)) == Some(code)
  {
    NumericalLiteralRoundTrip(t, code);
  }

  /** Tokens that translate one by one into `codes` translate together into
      the set of those codes. */
  lemma TranslateTokensOf(t: Values, tokens: seq<string>, codes: seq<int>)
    requires |tokens| == |codes|
    requires forall i :: 0 <= i < |tokens| ==> NumericalValue(t, tokens[i]) == Some(codes[i])
    ensures TranslateTokens(t, tokens).Some?
    ensures forall x :: x in TranslateTokens(t, tokens).value <==> x in codes
  {
    var r := TranslateTokens(t, tokens);
    assert r.Some?;
    forall x ensures x in r.value <==> x in codes {
      if x in r.value {
        var i :| 0 <= i < |tokens| && NumericalValue(t, tokens[i]) == Some(x);
        assert codes[i] == x;
      }
      if x in codes {
        var i :| 0 <= i < |codes| && codes[i] == x;
        assert NumericalValue(t, tokens[i]) == Some(x);
      }
    }
  }

  lemma LiteralsOfCodesTranslate(t: Values, codes: seq<int>)
    requires forall i :: 0 <= i < |codes| ==> codes[i] in Codes(t)
    ensures forall i :: 0 <= i < |codes| ==> NumericalValue(t, LiteralsOfCodes(t, codes)[i]) == Some(codes[i])
  {
    forall i | 0 <= i < |codes| ensures NumericalValue(t, LiteralsOfCodes(t, codes)[i]) == Some(codes[i]) {
      LiteralOfRegistered(t, codes[i]);
    }
  }

  /** Translating the literals of the state's codes gives back the state. */
  lemma TranslateLiteralsOfState(c: Criterion)
    requires Valid(c)
    ensures TranslateTokens(c.values, LiteralsOfCodes(c.values, Ascending(c.state))) == Some(c.state)
  {
    var codes := Ascending(c.state);
    assert forall i :: 0 <= i < |codes| ==> codes[i] in Codes(c.values) by {
      forall i | 0 <= i < |codes| ensures codes[i] in Codes(c.values) {
        assert codes[i] in c.state;
      }
    }
    LiteralsOfCodesTranslate(c.values, codes);
    var lits := LiteralsOfCodes(c.values, codes);
    TranslateTokensOf(c.values, lits, codes);
    var r := TranslateTokens(c.values, lits).value;
    assert r == c.state;
  }

  /** The formatted state translates back into the state: for an inclusive
      criterion by splitting it on "|" (so there is no leading or trailing
      delimiter and every piece is a registered literal), for an exclusive one
      as a single literal. An empty inclusive state prints "none", which is not
      read back. */
  lemma FormattedStateRoundTrip(c: Criterion)
    requires Valid(c)
    requires c.kind.Inclusive? ==> c.state != {} && LiteralsFreeOf(c.values, '|')
    ensures ParseState(c, FormattedState(c)) == Some(c.state)
  {
    if c.kind.Inclusive? {
      InclusiveRoundTrip(c);
    } else {
      ExclusiveRoundTrip(c);
    }
  }

  lemma InclusiveRoundTrip(c: Criterion)
    requires Valid(c) && c.kind.Inclusive? && c.state != {} && LiteralsFreeOf(c.values, '|')
    ensures ParseState(c, FormattedState(c)) == Some(c.state)
  {
    InclusiveFormattedInCodeOrder(c);
    TranslateLiteralsOfState(c);
  }

  /** A non-empty inclusive state formats as one literal per set value, in
      the ascending order in which a `std::set<int>` is iterated, separated
      by "|": splitting the text on "|" gives back exactly the literals of the
      state's codes taken in strictly ascending code order (`Ascending`), as
      `LiteralsOfAscendingCodes` spells out. */
  lemma InclusiveFormattedInCodeOrder(c: Criterion)
    requires Valid(c) && c.kind.Inclusive? && c.state != {} && LiteralsFreeOf(c.values, '|')
    ensures Split(FormattedState(c), '|') == LiteralsOfCodes(c.values, Ascending(c.state))
  {
    var lits := LiteralsOfCodes(c.values, Ascending(c.state));
    forall i | 0 <= i < |lits| ensures '|' !in lits[i] {
      var code := Ascending(c.state)[i];
      assert code in c.state;
      LiteralOfRegistered(c.values, code);
      var k :| 0 <= k < |c.values| && c.values[k] == ValuePair(lits[i], code);
    }
    assert "|" == ['|'];
    SplitJoin(lits, '|');
  }

  /** The literals of registered codes of `s`, listed in strictly ascending
      order, translate back to codes of `s` in strictly ascending order. */
  lemma LiteralsOfAscendingCodes(t: Values, codes: seq<int>, s: State)
    requires StrictlyAscending(codes)
    requires forall i :: 0 <= i < |codes| ==> codes[i] in s && codes[i] in Codes(t)
    ensures var lits := LiteralsOfCodes(t, codes);
      && (forall i :: 0 <= i < |lits| ==>
            NumericalValue(t, lits[i]).Some? && NumericalValue(t, lits[i]).value in s)
      && (forall i, j :: 0 <= i < j < |lits| ==>
            NumericalValue(t, lits[i]).value < NumericalValue(t, lits[j]).value)
  {
    LiteralsOfCodesTranslate(t, codes);
  }

  lemma ExclusiveRoundTrip(c: Criterion)
    requires Valid(c) && c.kind.Exclusive?
    ensures ParseState(c, FormattedState(c)) == Some(c.state)
  {
    var v := Least(c.state);
    assert c.state == {v} by {
      assert |c.state - {v}| == 0;
    }
    assert v in Codes(c.values);
    LiteralOfRegistered(c.values, v);
  }

  /** `listPossibleValues` reads back: between the braces, splitting on ","
      gives the table's literals in table order, each after the first
      preceded by the blank of the ", " separator. */
  lemma PossibleValuesReadBack(c: Criterion)
    requires |c.values| >= 1 && LiteralsFreeOf(c.values, ',')
    ensures var text := ListPossibleValues(c);
      && |text| >= 2 && text[0] == '{' && text[|text| - 1] == '}'
      && var pieces := Split(text[1..|text| - 1], ',');
         && |pieces| == |c.values|
         && pieces[0] == c.values[0].literal
         && forall i :: 1 <= i < |c.values| ==> pieces[i] == " " + c.values[i].literal
  {
    var lits := Literals(c.values);
    var inner := Join(lits, ", ");
    var text := ListPossibleValues(c);
    assert text[1..|text| - 1] == inner;
    if |lits| == 1 {
      SplitWithoutDelimiter(inner, ',');
    } else {
      var parts := [lits[0]] + PrefixEach(" ", lits[1..]);
      JoinPrefixed(lits[1..], ',', " ");
      assert ", " == [','] + " ";
      assert parts[1..] == PrefixEach(" ", lits[1..]);
      assert Join(parts, [',']) == lits[0] + [','] + (" " + Join(lits[1..], ", "));
      assert Join(parts, [',']) == inner;
      forall i | 0 <= i < |parts| ensures ',' !in parts[i] {
        if i > 0 {
          assert parts[i] == " " + lits[i];
          assert ',' !in c.values[i].literal;
        }
      }
      SplitJoin(parts, ',');
    }
  }

  /** With no literal spelled "none" or containing "|", an inclusive
      criterion's formatted state is "none" exactly when its state is empty. */
  lemma NoneExactlyWhenEmpty(c: Criterion)
    requires Valid(c) && c.kind.Inclusive?
    requires LiteralsFreeOf(c.values, '|')
    requires NumericalValue(c.values, "none").None?
    ensures FormattedState(c) == "none" <==> c.state == {}
  {
    if c.state != {} {
      FormattedStateRoundTrip(c);
      NoneDoesNotParse(c);
    }
  }

  lemma NoneDoesNotParse(c: Criterion)
    requires c.kind.Inclusive?
    requires NumericalValue(c.values, "none").None?
    ensures ParseState(c, "none") == None
  {
    SplitWithoutDelimiter("none", '|');
  }
}

=== FILE: criterion_scenarios.dfy ===
/** The scenarios of the criterion unit tests, stated over the model: the
    display table {a:2, b:3, c:4}, the inclusive match scenario, the repeated
    change warning, the empty set request and the registry of four criteria. */
module CriterionScenarios {
  import opened Outcomes
  import opened Text
  import opened IntSets
  import opened CriterionInterface
  import opened Xml
  import opened Criterion
  import Criteria

  /** The table the display tests build their criteria with. */
  const DisplayValues: Values := [ValuePair("a", 2), ValuePair("b", 3), ValuePair("c", 4)]

  function ValuePairElement(literal: string, numerical: string): Element
  {
    Element("ValuePair", [Attribute("Literal", literal), Attribute("Numerical", numerical)], [])
  }

  /** The codes and literals of {a:2, b:3, c:4}. */
  lemma DisplayCodes()
    ensures Codes(DisplayValues) == {2, 3, 4}
    ensures LiteralOf(DisplayValues, 2) == "a"
    ensures LiteralOf(DisplayValues, 3) == "b"
    ensures LiteralOf(DisplayValues, 4) == "c"
  {
    assert DisplayValues[0] in DisplayValues && DisplayValues[1] in DisplayValues
        && DisplayValues[2] in DisplayValues;
  }

  /** Three literals joined with a separator. */
  lemma JoinThree(a: string, b: string, c: string, sep: string)
    ensures Join([a, b, c], sep) == a + sep + (b + sep + c)
  {
    assert [b, c][1..] == [c];
    assert Join([b, c], sep) == b + sep + c;
    assert [a, b, c][1..] == [b, c];
  }

  /** {a:2, b:3, c:4} lists as "{a, b, c}". */
  lemma DisplayList(c: Criterion)
    requires c.values == DisplayValues
    ensures ListPossibleValues(c) == "{a, b, c}"
  {
    assert Literals(DisplayValues) == ["a", "b", "c"];
    JoinThree("a", "b", "c", ", ");
  }

  /** {a:2, b:3, c:4} serialises as three `ValuePair` elements. */
  lemma DisplayElements()
    ensures ValuePairElements(DisplayValues) ==
      [ValuePairElement("a", "2"), ValuePairElement("b", "3"), ValuePairElement("c", "4")]
  {
    assert NatToString(2) == "2" && NatToString(3) == "3" && NatToString(4) == "4";
  }

  /** The three one-line descriptions of any criterion whose formatted state
      is `state` and whose possible values list as `possible` ("{a, b, c}"
      for the display table, by `DisplayList`). */
  lemma DisplayLines(c: Criterion, state: string, possible: string)
    requires FormattedState(c) == state && ListPossibleValues(c) == possible
    ensures Description(c, false, false) == "Criterion name: " + c.name + ", current state: " + state
    ensures Description(c, true, false) ==
      "Criterion name: " + c.name + ", type kind: " + KindName(c.kind) + ", current state: " + state
      + ", states: " + possible
    ensures Description(c, false, true) == c.name + " = " + state
  {
  }

  /** The human-readable description with type information of any criterion
      whose formatted state is `state` and whose possible values list as
      `possible`: a title line, its underline, then the kind with the possible
      values and the current state. */
  lemma DisplayBlock(c: Criterion, state: string, possible: string)
    requires FormattedState(c) == state && ListPossibleValues(c) == possible
    ensures Description(c, true, true) ==
      "\n" + (c.name + ":") + "\n" + Repeat('=', |c.name| + 1)
      + "\nPossible states (" + KindName(c.kind) + "): " + possible + "\nCurrent state = " + state
  {
    assert |c.name + ":"| == |c.name| + 1;
  }

  /** The XML element of a criterion over {a:2, b:3, c:4} whose formatted
      state is `state`. */
  lemma DisplayXml(c: Criterion, state: string)
    requires c.values == DisplayValues && FormattedState(c) == state
    ensures ToXml(c) == Element("SelectionCriterion",
      [Attribute("Value", state), Attribute("Name", c.name), Attribute("Kind", KindName(c.kind))],
      [ValuePairElement("a", "2"), ValuePairElement("b", "3"), ValuePairElement("c", "4")])
  {
    DisplayElements();
  }

  /** A fresh exclusive criterion over {a:2, b:3, c:4} is in state `a` and
      describes itself as the tests expect. */
  lemma ExclusiveDisplay(name: string)
    ensures NewCriterion(Exclusive, name, DisplayValues).Ok?
    ensures var c := NewCriterion(Exclusive, name, DisplayValues).value;
      && ListPossibleValues(c) == "{a, b, c}"
      && FormattedState(c) == "a"
      && Description(c, false, true) == name + " = " + "a"
      && Description(c, true, false) ==
           "Criterion name: " + name + ", type kind: " + "Exclusive" + ", current state: " + "a"
           + ", states: " + "{a, b, c}"
  {
    var c := NewCriterion(Exclusive, name, DisplayValues).value;
    DisplayCodes();
    assert Least(c.state) == 2;
    DisplayList(c);
    DisplayLines(c, "a", "{a, b, c}");
  }

  /** A fresh inclusive criterion over {a:2, b:3, c:4} is in state `none` and
      describes itself as the tests expect. */
  lemma InclusiveDisplay(name: string)
    ensures NewCriterion(Inclusive, name, DisplayValues).Ok?
    ensures var c := NewCriterion(Inclusive, name, DisplayValues).value;
      && ListPossibleValues(c) == "{a, b, c}"
      && FormattedState(c) == "none"
      && Description(c, false, true) == name + " = " + "none"
      && Description(c, true, false) ==
           "Criterion name: " + name + ", type kind: " + "Inclusive" + ", current state: " + "none"
           + ", states: " + "{a, b, c}"
  {
    var c := NewCriterion(Inclusive, name, DisplayValues).value;
    DisplayList(c);
    DisplayLines(c, "none", "{a, b, c}");
  }

  /** Setting {2, 3, 4} on an inclusive criterion over {a:2, b:3, c:4}
      formats as "a|b|c"; a mask with unknown codes is refused. */
  lemma InclusiveDisplaySet(c: Criterion)
    requires Valid(c) && c.kind.Inclusive? && c.values == DisplayValues
    ensures SetState(c, {2, 3, 4}).error.None?
    ensures FormattedState(SetState(c, {2, 3, 4}).crit) == "a|b|c"
    ensures SetState(c, {2, 3, 4, 6, 8, 10, 12, 14}).error.Some?
  {
    DisplayCodes();
    RegisteredIsAdmissible(c, {2, 3, 4});
    RegisteredIsAdmissible(c, {2, 3, 4, 6, 8, 10, 12, 14});
    assert 6 in {2, 3, 4, 6, 8, 10, 12, 14} && 6 !in Codes(c.values);
    var s := SetState(c, {2, 3, 4}).crit;
    assert s.state == {2, 3, 4} && s.values == DisplayValues;
    FormatsAsABC(s);
  }

  lemma FormatsAsABC(s: Criterion)
    requires s.kind.Inclusive? && s.values == DisplayValues && s.state == {2, 3, 4}
    ensures FormattedState(s) == "a|b|c"
  {
    var lits := LiteralsOfCodes(s.values, Ascending(s.state));
    assert FormattedState(s) == Join(lits, "|") by {
      assert 2 in s.state;
    }
    assert lits == ["a", "b", "c"] by {
      AscendingDisplayCodes();
      DisplayCodeLiterals();
    }
    JoinABC();
  }

  lemma JoinABC()
    ensures Join(["a", "b", "c"], "|") == "a|b|c"
  {
    JoinThree("a", "b", "c", "|");
  }

  lemma AscendingDisplayCodes()
    ensures Ascending({2, 3, 4}) == [2, 3, 4]
  {
    AscendingUnique({2, 3, 4}, [2, 3, 4]);
  }

  lemma DisplayCodeLiterals()
    ensures LiteralsOfCodes(DisplayValues, [2, 3, 4]) == ["a", "b", "c"]
  {
    DisplayCodes();
  }

  /** With the state {1, 3, 4, 7, 10} set, `Includes` holds of a subset only and
      `Excludes` of a disjoint set only. */
  lemma IncludesExcludesScenario(c: Criterion)
    requires Valid(c) && c.kind.Inclusive?
    requires {1, 3, 4, 7, 10} <= Codes(c.values)
    ensures SetState(c, {1, 3, 4, 7, 10}).error.None?
    ensures var s := SetState(c, {1, 3, 4, 7, 10}).crit;
      && Match(s, "Includes", {1, 7, 10}) == Ok(true)
      && Match(s, "Includes", {1, 7, 10, 15}) == Ok(false)
      && Match(s, "Includes", {5, 8, 15}) == Ok(false)
      && Match(s, "Excludes", {1, 7, 10}) == Ok(false)
      && Match(s, "Excludes", {1, 7, 10, 15}) == Ok(false)
      && Match(s, "Excludes", {5, 8, 15}) == Ok(true)
  {
    RegisteredIsAdmissible(c, {1, 3, 4, 7, 10});
    var s := SetState(c, {1, 3, 4, 7, 10}).crit;
    MatchOnSetState(s);
  }

  lemma MatchOnSetState(s: Criterion)
    requires Valid(s) && s.kind.Inclusive? && s.state == {1, 3, 4, 7, 10}
    ensures Match(s, "Includes", {1, 7, 10}) == Ok(true)
    ensures Match(s, "Includes", {1, 7, 10, 15}) == Ok(false)
    ensures Match(s, "Includes", {5, 8, 15}) == Ok(false)
    ensures Match(s, "Excludes", {1, 7, 10}) == Ok(false)
    ensures Match(s, "Excludes", {1, 7, 10, 15}) == Ok(false)
    ensures Match(s, "Excludes", {5, 8, 15}) == Ok(true)
  {
    assert 15 !in s.state;
    assert 1 in s.state && 1 in {1, 7, 10};
    assert 1 in {1, 7, 10, 15};
  }

  /** Setting a new value: the state and formatted state follow, `Is` holds,
      `IsNot` does not, and the changed event is logged. */
  lemma SetNewValueScenario(c: Criterion, v: int)
    requires Valid(c)
    requires v in Codes(c.values) && c.state != {v}
    ensures SetState(c, {v}).error.None?
    ensures var s := SetState(c, {v}).crit;
      && s.state == {v}
      && FormattedState(s) == LiteralOf(c.values, v)
      && Match(s, "Is", {v}) == Ok(true)
      && Match(s, "IsNot", {v}) == Ok(false)
      && SetState(c, {v}).log[0] ==
           Info("Selection criterion changed event: " + Description(s, false, false))
  {
    RegisteredIsAdmissible(c, {v});
    var s := SetState(c, {v}).crit;
    SingleValueFormatted(s, v);
  }

  /** A state holding one value formats as that value's literal, whatever
      the criterion's kind. */
  lemma SingleValueFormatted(s: Criterion, v: int)
    requires s.state == {v}
    ensures FormattedState(s) == LiteralOf(s.values, v)
  {
    assert v in s.state;
    assert Least(s.state) == v;
    assert Ascending({v}) == [v] by {
      AscendingUnique({v}, [v]);
    }
  }

  /** Two changes in a row without a reset: the second warns that one change
      is still unapplied; a reset then clears the modified status. */
  lemma RepeatedChangeWarns(c: Criterion)
    requires Valid(c) && !HasBeenModified(c)
    requires {2, 4} <= Codes(c.values) && c.state != {2}
    ensures SetState(c, {2}).error.None?
    ensures var first := SetState(c, {2}).crit;
      && SetState(first, {4}).error.None?
      && HasBeenModified(SetState(first, {4}).crit)
      && Warning("Selection criterion '" + c.name + "' has been modified " + "1"
                 + " time(s) without any configuration application") in SetState(first, {4}).log
      && !HasBeenModified(ResetModifiedStatus(SetState(first, {4}).crit))
  {
    var first := ChangeOnce(c, 2);
    assert {4} != {2} by {
      assert 4 in {4};
    }
    ChangeAgain(first, 4);
    UnappliedOnce(c.name);
  }

  /** A first change of an unmodified criterion counts one modification. */
  lemma ChangeOnce(c: Criterion, v: int) returns (first: Criterion)
    requires Valid(c) && !HasBeenModified(c)
    requires v in Codes(c.values) && c.state != {v}
    ensures SetState(c, {v}).error.None?
    ensures first == SetState(c, {v}).crit
    ensures Valid(first) && first.modifications == 1 && first.name == c.name
    ensures first.values == c.values && first.state == {v}
  {
    RegisteredIsAdmissible(c, {v});
    first := SetState(c, {v}).crit;
  }

  /** A change of a criterion modified once logs the unapplied-changes
      warning for one change. */
  lemma ChangeAgain(first: Criterion, v: int)
    requires Valid(first) && first.modifications == 1
    requires v in Codes(first.values) && first.state != {v}
    ensures SetState(first, {v}).error.None?
    ensures UnappliedChangesLine(first.name, 1) in SetState(first, {v}).log
    ensures HasBeenModified(SetState(first, {v}).crit)
  {
    RegisteredIsAdmissible(first, {v});
    var second := SetState(first, {v});
    assert second.log[1] == UnappliedChangesLine(first.name, 1);
  }

  lemma UnappliedOnce(name: string)
    ensures UnappliedChangesLine(name, 1) ==
      Warning("Selection criterion '" + name + "' has been modified " + "1"
              + " time(s) without any configuration application")
  {
    assert NatToString(1) == "1";
  }

  /** Re-setting the current state succeeds, logs nothing and leaves the
      criterion unmodified. */
  lemma ResetCurrentStateScenario(c: Criterion)
    requires Valid(c) && !HasBeenModified(c)
    ensures SetState(c, c.state) == Update(c, [], None)
    ensures !HasBeenModified(SetState(c, c.state).crit)
  {
  }

  /** Requesting no value: an inclusive criterion becomes empty ("none"),
      an exclusive one goes back to its first value. */
  lemma EmptySetScenario(c: Criterion)
    requires Valid(c)
    ensures SetState(c, {}).error.None?
    ensures c.kind.Inclusive? ==>
      SetState(c, {}).crit.state == {} && FormattedState(SetState(c, {}).crit) == "none"
    ensures c.kind.Exclusive? ==> SetState(c, {}).crit.state == {c.values[0].numerical}
  {
    RegisteredIsAdmissible(c, Requested(c, {}));
    assert c.values[0] in c.values;
  }

  /** An exclusive criterion needs two values and an inclusive one needs one. */
  lemma TooFewValues(name: string, literal: string, code: int)
    ensures NewCriterion(Exclusive, name, []).Err?
    ensures NewCriterion(Exclusive, name, [ValuePair(literal, code)]).Err?
    ensures NewCriterion(Inclusive, name, []).Err?
    ensures NewCriterion(Inclusive, name, [ValuePair(literal, code)]).Ok?
  {
  }

  /** The inclusive constructor's error text, word for word. */
  lemma InclusiveTooFewText(name: string)
    ensures NewCriterion(Inclusive, name, []).error ==
      "Not enough values were provided for " + "inclusive" + " criterion '" + name
      + "' which needs at least " + "1" + " values"
  {
    assert NatToString(1) == "1";
  }

  /** The inclusive rejection of an unregistered value, word for word. */
  lemma InclusiveUnregisteredText(c: Criterion, s: State, code: int)
    requires Valid(c) && c.kind.Inclusive?
    requires code in s && code !in Codes(c.values)
    ensures SetState(c, s).error ==
      Some("Inclusive" + " criterion '" + c.name + "' can't be set because " + "some values are not registered")
  {
    RegisteredIsAdmissible(c, s);
    assert s != c.state;
  }

  // ---------------------------------------------------------------------------
  // The registry scenario

  /** The table the registry tests build their criteria with. */
  const RegistryValues: Values := [ValuePair("State", 1), ValuePair("State2", 2)]

  /** Creates a criterion the scenario knows will be accepted. */
  function Add(r: Criteria.Criteria, kind: Kind, name: string): (res: Criteria.Criteria)
    requires Criteria.Valid(r)
    requires Criteria.GetSelectionCriterion(r, name).None?
    ensures Criteria.Valid(res)
    ensures Criteria.CreateCriterion(r, kind, name, RegistryValues).Ok?
    ensures res == Criteria.CreateCriterion(r, kind, name, RegistryValues).value.0
    ensures res.criteria == r.criteria + [Fresh(kind, name)]
  {
    Criteria.CreateCriterion(r, kind, name, RegistryValues).value.0
  }

  function SerialisedCriterion(kind: string, name: string, state: string): Element
  {
    Element("SelectionCriterion",
            [Attribute("Value", state), Attribute("Name", name), Attribute("Kind", kind)],
            [ValuePairElement("State", "1"), ValuePairElement("State2", "2")])
  }

  /** Creating a criterion without values fails for both kinds, with a
      message; an empty registry finds no criterion. */
  lemma RegistryScenario()
    ensures Criteria.CreateCriterion(Criteria.Empty(), Inclusive, "InvalidInclusive", []).Err?
    ensures |Criteria.CreateCriterion(Criteria.Empty(), Inclusive, "InvalidInclusive", []).error| > 0
    ensures Criteria.CreateCriterion(Criteria.Empty(), Exclusive, "InvalidExclusive", []).Err?
    ensures |Criteria.CreateCriterion(Criteria.Empty(), Exclusive, "InvalidExclusive", []).error| > 0
    ensures Criteria.GetSelectionCriterion(Criteria.Empty(), "A").None?
  {
  }

  /** The registry holding A (inclusive), B (exclusive), C (inclusive) and
      D (exclusive), created in that order; each name is free when its
      criterion is created. */
  function FourCriteria(): (r: Criteria.Criteria)
    ensures Criteria.Valid(r) && |r.criteria| == 4
    ensures r.criteria[0] == Fresh(Inclusive, "A") && r.criteria[1] == Fresh(Exclusive, "B")
    ensures r.criteria[2] == Fresh(Inclusive, "C") && r.criteria[3] == Fresh(Exclusive, "D")
  {
    Add(ThreeCriteria(), Exclusive, "D")
  }

  function ThreeCriteria(): (r: Criteria.Criteria)
    ensures Criteria.Valid(r) && |r.criteria| == 3
    ensures r.criteria[0] == Fresh(Inclusive, "A") && r.criteria[1] == Fresh(Exclusive, "B")
    ensures r.criteria[2] == Fresh(Inclusive, "C")
  {
    Add(TwoCriteria(), Inclusive, "C")
  }

  function TwoCriteria(): (r: Criteria.Criteria)
    ensures Criteria.Valid(r) && |r.criteria| == 2
    ensures r.criteria[0] == Fresh(Inclusive, "A") && r.criteria[1] == Fresh(Exclusive, "B")
  {
    Add(Add(Criteria.Empty(), Inclusive, "A"), Exclusive, "B")
  }

  /** The registry of four serialises its criteria in creation order with
      their default states. */
  lemma RegistryOfFour()
    ensures Criteria.ToXml(FourCriteria()).tag == "SelectionCriteria"
    ensures |Criteria.ToXml(FourCriteria()).children| == 4
    ensures Criteria.ToXml(FourCriteria()).children[0] == SerialisedCriterion("Inclusive", "A", "none")
    ensures Criteria.ToXml(FourCriteria()).children[1] == SerialisedCriterion("Exclusive", "B", "State")
    ensures Criteria.ToXml(FourCriteria()).children[2] == SerialisedCriterion("Inclusive", "C", "none")
    ensures Criteria.ToXml(FourCriteria()).children[3] == SerialisedCriterion("Exclusive", "D", "State")
  {
    FourChild(0, Inclusive, "A");
    FourChild(1, Exclusive, "B");
    FourChild(2, Inclusive, "C");
    FourChild(3, Exclusive, "D");
  }

  /** The registry of four finds each of its criteria by name, and none
      called "Unknown". */
  lemma RegistryLookups()
    ensures Criteria.GetSelectionCriterion(FourCriteria(), "A") == Some(Fresh(Inclusive, "A"))
    ensures Criteria.GetSelectionCriterion(FourCriteria(), "B") == Some(Fresh(Exclusive, "B"))
    ensures Criteria.GetSelectionCriterion(FourCriteria(), "C") == Some(Fresh(Inclusive, "C"))
    ensures Criteria.GetSelectionCriterion(FourCriteria(), "D") == Some(Fresh(Exclusive, "D"))
    ensures Criteria.GetSelectionCriterion(FourCriteria(), "Unknown").None?
  {
  }

  /** Setting {2} on any criterion of the registry of four succeeds and
      marks it modified; a bulk reset then clears every criterion. */
  lemma RegistryModifyThenReset(i: nat, kind: Kind, name: string)
    requires i < 4 && FourCriteria().criteria[i] == Fresh(kind, name)
    ensures Criteria.SetStateOf(FourCriteria(), i, {2}).1.error.None?
    ensures var next := Criteria.SetStateOf(FourCriteria(), i, {2}).0;
      && HasBeenModified(next.criteria[i])
      && forall j :: 0 <= j < 4 ==> !HasBeenModified(Criteria.ResetModifiedStatus(next).criteria[j])
  {
    ModifyFresh(Fresh(kind, name));
  }

  /** A fresh criterion over the registry table is not in state {2}, and
      setting {2} counts as a change. */
  lemma ModifyFresh(c: Criterion)
    requires Valid(c) && c.values == RegistryValues && !HasBeenModified(c)
    requires c.state == DefaultStateOf(c.kind, c.values)
    ensures SetState(c, {2}).error.None?
    ensures HasBeenModified(SetState(c, {2}).crit)
  {
    assert RegistryValues[1] in RegistryValues;
    assert Codes(c.values) == {1, 2} by {
      assert RegistryValues[0] in RegistryValues;
    }
    RegisteredIsAdmissible(c, {2});
    assert 2 in {2} && 2 !in c.state;
  }

  /** Child `i` of the registry of four is the element of the fresh
      criterion created `i`-th. */
  lemma FourChild(i: nat, kind: Kind, name: string)
    requires i < 4 && FourCriteria().criteria[i] == Fresh(kind, name)
    ensures Criteria.ToXml(FourCriteria()).children[i] ==
      SerialisedCriterion(KindName(kind), name, if kind.Inclusive? then "none" else "State")
  {
    if kind.Inclusive? {
      FreshInclusiveElement(name);
    } else {
      FreshExclusiveElement(name);
    }
  }

  /** The criterion the registry builds over the registry table. */
  function Fresh(kind: Kind, name: string): (c: Criterion)
    ensures Valid(c) && c.name == name && c.kind == kind && c.values == RegistryValues
    ensures c.state == DefaultStateOf(kind, RegistryValues) && !HasBeenModified(c)
  {
    NewCriterion(kind, name, RegistryValues).value
  }

  /** A fresh inclusive criterion over the registry table serialises with
      state "none". */
  lemma FreshInclusiveElement(name: string)
    ensures ToXml(Fresh(Inclusive, name)) == SerialisedCriterion("Inclusive", name, "none")
  {
    RegistryElements();
  }

  /** A fresh exclusive criterion over the registry table serialises with
      its first literal, "State". */
  lemma FreshExclusiveElement(name: string)
    ensures ToXml(Fresh(Exclusive, name)) == SerialisedCriterion("Exclusive", name, "State")
  {
    RegistryElements();
    assert RegistryValues[0] in RegistryValues;
    assert Least({1}) == 1;
  }

  lemma RegistryElements()
    ensures ValuePairElements(RegistryValues) == [ValuePairElement("State", "1"), ValuePairElement("State2", "2")]
  {
    assert NatToString(1) == "1" && NatToString(2) == "2";
  }
}

=== FILE: findings.dfy ===
/** The inclusive formatted state as the source writes it. Each state value is
    appended to the output string directly, so the integer is narrowed to one
    `char` (its low byte) instead of being replaced by its literal. The
    corrected rendering, which the rest of the model uses, is
    `Criterion.FormattedState`. */
module Findings {
  import opened IntSets
  import opened CriterionInterface
  import opened Criterion
  import CriterionScenarios

  /** The character `std::string::operator+=(char)` appends for an `int`:
      the value converted to `char`, i.e. its low byte. */
  function LowByteChar(v: int): (ch: char)
    ensures ch as int < 256 && (ch as int - v) % 256 == 0
  {
    (v % 256) as char
  }

  /** The values' low bytes, separated by the delimiter. */
  function RawJoin(codes: seq<int>): (r: string)
    requires |codes| >= 1
    ensures |r| == 2 * |codes| - 1
    ensures r[0] == LowByteChar(codes[0])
  {
    if |codes| == 1 then [LowByteChar(codes[0])]
    else [LowByteChar(codes[0]), '|'] + RawJoin(codes[1..])
  }

  /** Even positions carry the values' low bytes, odd positions the
      delimiter. */
  lemma {:induction false} RawJoinShape(codes: seq<int>)
    requires |codes| >= 1
    ensures forall i :: 0 <= i < |codes| ==> RawJoin(codes)[2 * i] == LowByteChar(codes[i])
    ensures forall i :: 0 <= i < |codes| - 1 ==> RawJoin(codes)[2 * i + 1] == '|'
    decreases |codes|
  {
    if |codes| > 1 {
      var rest := RawJoin(codes[1..]);
      RawJoinShape(codes[1..]);
      forall i | 1 <= i < |codes|
        ensures RawJoin(codes)[2 * i] == LowByteChar(codes[i])
      {
        var j := i - 1;
        assert RawJoin(codes)[2 * i] == rest[2 * j];
        assert codes[i] == codes[1..][j];
      }
      forall i | 1 <= i < |codes| - 1
        ensures RawJoin(codes)[2 * i + 1] == '|'
      {
        var j := i - 1;
        assert RawJoin(codes)[2 * i + 1] == rest[2 * j + 1];
      }
    }
  }

  /** `InclusiveCriterion::getFormattedState` as written. */
  function FormattedStateAsWritten(c: Criterion): (r: string)
    requires c.kind.Inclusive?
    ensures c.state == {} ==> r == "none"
    ensures c.state != {} ==> |r| == 2 * |c.state| - 1
  {
    if c.state == {} then "none" else RawJoin(Ascending(c.state))
  }

  /** As written, a non-empty state formats the same whatever the value
      table says, so the literals never appear: every other character is the
      delimiter and the ones between are the codes' low bytes
      (`RawJoinShape`). */
  lemma AsWrittenIgnoresLiterals(c: Criterion, values: Values)
    requires c.kind.Inclusive? && c.state != {}
    ensures FormattedStateAsWritten(c) == FormattedStateAsWritten(c.(values := values))
    ensures forall i :: 0 <= i < |c.state| - 1 ==> FormattedStateAsWritten(c)[2 * i + 1] == '|'
  {
    RawJoinShape(Ascending(c.state));
  }

  /** The display criterion of the unit tests, with {2, 3, 4} set: as
      written it formats as the control characters 2, 3 and 4 between
      delimiters, not as "a|b|c", which is what the tests expect and what the
      corrected rendering gives (`CriterionScenarios.FormatsAsABC`). */
  lemma AsWrittenDiffersOnDisplayState(c: Criterion)
    requires c.kind.Inclusive? && c.values == CriterionScenarios.DisplayValues && c.state == {2, 3, 4}
    ensures FormattedStateAsWritten(c) == [2 as char, '|', 3 as char, '|', 4 as char]
    ensures FormattedStateAsWritten(c) != "a|b|c"
  {
    var r := FormattedStateAsWritten(c);
    assert r == RawJoin([2, 3, 4]) by {
      assert 2 in c.state;
      CriterionScenarios.AscendingDisplayCodes();
    }
    RawJoinOfDisplayCodes();
    assert "a|b|c"[0] == 'a';
  }

  lemma RawJoinOfDisplayCodes()
    ensures RawJoin([2, 3, 4]) == [2 as char, '|', 3 as char, '|', 4 as char]
  {
    assert [2, 3, 4][1..] == [3, 4];
    assert [3, 4][1..] == [4];
  }
}

=== FILE: int_sets.dfy ===
/** The criterion state is a `std::set<int>`: iterating it visits the codes in
    ascending numeric order. This module gives that enumeration. */
module IntSets {

  /** Every element is strictly smaller than the ones after it. */
  predicate StrictlyAscending(s: seq<int>)
  {
    forall i, j :: 0 <= i < j < |s| ==> s[i] < s[j]
  }

  /** Some element of a non-empty set. */
  ghost function Pick(s: set<int>): (y: int)
    requires s != {}
    ensures y in s
  {
    assert exists y :: y in s by {
      if forall y :: y !in s {
        assert false;
      }
    }
    var y :| y in s;
    y
  }

  /** A non-empty finite set of integers has a least element. */
  lemma {:induction false} LeastExists(s: set<int>)
    requires s != {}
    ensures exists m :: m in s && forall x :: x in s ==> m <= x
    decreases s
  {
    var y := Pick(s);
    if s != {y} {
      var rest := s - {y};
      LeastExists(rest);
      var m :| m in rest && forall x :: x in rest ==> m <= x;
      var least := if y < m then y else m;
      forall x | x in s ensures least <= x {
        if x != y {
          assert x in rest;
        }
      }
      assert least in s;
    } else {
      assert forall x :: x in s ==> y <= x;
    }
  }

  /** The least element of a non-empty set (what `s.begin()` points to). */
  function Least(s: set<int>): (m: int)
    requires s != {}
    ensures m in s
    ensures forall x :: x in s ==> m <= x
  {
    LeastExists(s);
    var m :| m in s && forall x :: x in s ==> m <= x;
    m
  }

  /** The elements of `s` in iteration order of a `std::set<int>`. */
  function Ascending(s: set<int>): (r: seq<int>)
    ensures StrictlyAscending(r)
    ensures |r| == |s|
    ensures forall x :: x in r <==> x in s
    decreases s
  {
    if s == {} then []
    else
      var m := Least(s);
      [m] + Ascending(s - {m})
  }

  /** A strictly ascending sequence is determined by its elements: it is the
      ascending enumeration of the set they form. */
  lemma {:induction false} AscendingUnique(s: set<int>, r: seq<int>)
    requires StrictlyAscending(r)
    requires forall x :: x in r <==> x in s
    ensures Ascending(s) == r
    decreases |r|
  {
    if r == [] {
      assert s == {} by {
        forall x | x in s ensures false {
          assert false;
        }
      }
    } else {
      HeadIsLeast(s, r);
      var m := r[0];
      TailElements(s, r);
      AscendingUnique(s - {m}, r[1..]);
    }
  }

  lemma HeadIsLeast(s: set<int>, r: seq<int>)
    requires StrictlyAscending(r)
    requires forall x :: x in r <==> x in s
    requires r != []
    ensures s != {} && Least(s) == r[0]
  {
    assert r[0] in r;
    var m := Least(s);
    assert m in r;
    var k :| 0 <= k < |r| && r[k] == m;
    assert r[0] <= m;
  }

  lemma TailElements(s: set<int>, r: seq<int>)
    requires StrictlyAscending(r)
    requires forall x :: x in r <==> x in s
    requires r != []
    ensures StrictlyAscending(r[1..])
    ensures forall x :: x in r[1..] <==> x in s - {r[0]}
  {
    var rest := r[1..];
    forall x ensures x in rest <==> x in s - {r[0]} {
      if x in rest {
        var k :| 0 <= k < |rest| && rest[k] == x;
        assert r[k + 1] == x;
      }
      if x in s - {r[0]} {
        assert x in r;
        var k :| 0 <= k < |r| && r[k] == x;
        assert k != 0;
        assert rest[k - 1] == x;
      }
    }
  }
}

=== FILE: outcomes.dfy ===
/** Failure-carrying values used across the model in place of the source's
    boolean-plus-error-string returns, `NULL` results and exceptions. */
module Outcomes {

  /** A value that may be absent: a lookup that finds nothing, a `NULL` result. */
  datatype Option<+T> = None | Some(value: T) {

    /** The carried value, or `default` when absent. */
    function GetOr(default: T): T {
      match this
      case Some(v) => v
      case None => default
    }
  }

  /** The outcome of an operation that either produces a value or fails with
      a human-readable message (the source's `std::string& error` out-parameter
      or the `what()` of an exception). */
  datatype Result<+T> = Ok(value: T) | Err(error: string)
}

=== FILE: text.dfy ===
/** String helpers the formatting code relies on: joining and splitting on a
    delimiter, decimal rendering of integers (what `std::to_string` and
    `operator<<` produce) and its inverse, and substring occurrence. */
module Text {
  import opened Outcomes

  /** Concatenates `parts` with `sep` between consecutive parts; no leading or
      trailing separator, and the empty list gives the empty string. */
  function Join(parts: seq<string>, sep: string): string
  {
    if |parts| == 0 then ""
    else if |parts| == 1 then parts[0]
    else parts[0] + sep + Join(parts[1..], sep)
  }

  /** Cuts `s` at every occurrence of `d`. Like every tokenizer that keeps
      empty fields, it always yields at least one token. */
  function Split(s: string, d: char): (tokens: seq<string>)
    ensures |tokens| >= 1
    ensures forall i :: 0 <= i < |tokens| ==> d !in tokens[i]
    decreases |s|
  {
    if |s| == 0 then [""]
    else
      var rest := Split(s[1..], d);
      if s[0] == d then [""] + rest
      else [[s[0]] + rest[0]] + rest[1..]
  }

  /** Splitting a delimiter-free prefix glued to some text extends the first
      token of that text and keeps the others. */
  lemma {:induction false} SplitPrefix(x: string, tail: string, d: char)
    requires d !in x
    ensures Split(x + tail, d) == [x + Split(tail, d)[0]] + Split(tail, d)[1..]
    decreases |x|
  {
    if |x| == 0 {
      assert x + tail == tail;
      var t := Split(tail, d);
      assert x + t[0] == t[0];
      assert t == [t[0]] + t[1..];
    } else {
      assert (x + tail)[1..] == x[1..] + tail;
      SplitPrefix(x[1..], tail, d);
      assert [x[0]] + (x[1..] + Split(tail, d)[0]) == x + Split(tail, d)[0];
    }
  }

  /** Text without the delimiter is a single token. */
  lemma SplitWithoutDelimiter(s: string, d: char)
    requires d !in s
    ensures Split(s, d) == [s]
  {
    SplitPrefix(s, "", d);
    assert s + "" == s;
    assert s + Split("", d)[0] == s;
  }

  /** Split undoes Join when no part contains the delimiter: the tokens of a
      joined list are exactly its parts, in order. */
  lemma {:induction false} SplitJoin(parts: seq<string>, d: char)
    requires |parts| >= 1
    requires forall i :: 0 <= i < |parts| ==> d !in parts[i]
    ensures Split(Join(parts, [d]), d) == parts
    decreases |parts|
  {
    if |parts| == 1 {
      SplitPrefix(parts[0], "", d);
      assert parts[0] + "" == parts[0];
    } else {
      var rest := Join(parts[1..], [d]);
      SplitJoin(parts[1..], d);
      assert Join(parts, [d]) == parts[0] + ([d] + rest);
      SplitPrefix(parts[0], [d] + rest, d);
      assert ([d] + rest)[1..] == rest;
      assert Split([d] + rest, d) == [""] + Split(rest, d);
      assert parts[0] + "" == parts[0];
    }
  }

  /** Each of `ys` with `p` in front. */
  function PrefixEach(p: string, ys: seq<string>): (r: seq<string>)
    ensures |r| == |ys|
    ensures forall i :: 0 <= i < |ys| ==> r[i] == p + ys[i]
  {
    seq(|ys|, i requires 0 <= i < |ys| => p + ys[i])
  }

  /** Joining with a delimiter followed by `p` is joining with the bare
      delimiter once every part but the first carries `p` in front. */
  lemma {:induction false} JoinPrefixed(ys: seq<string>, d: char, p: string)
    requires |ys| >= 1
    ensures p + Join(ys, [d] + p) == Join(PrefixEach(p, ys), [d])
    decreases |ys|
  {
    if |ys| > 1 {
      var rest := Join(ys[1..], [d] + p);
      JoinPrefixed(ys[1..], d, p);
      assert PrefixEach(p, ys)[1..] == PrefixEach(p, ys[1..]);
      assert p + (ys[0] + ([d] + p) + rest) == (p + ys[0]) + [d] + (p + rest);
    }
  }

  /** `n` copies of `c` (a `std::string(n, c)`). */
  function Repeat(c: char, n: nat): (s: string)
    ensures |s| == n
    ensures forall i :: 0 <= i < n ==> s[i] == c
  {
    seq(n, _ => c)
  }

  predicate IsDigit(c: char)
  {
    '0' <= c <= '9'
  }

  function DigitChar(d: nat): (c: char)
    requires d < 10
    ensures IsDigit(c)
  {
    ('0' as int + d) as char
  }

  function DigitValue(c: char): (d: nat)
    requires IsDigit(c)
    ensures d < 10
  {
    c as int - '0' as int
  }

  predicate AllDigits(s: string)
  {
    forall i :: 0 <= i < |s| ==> IsDigit(s[i])
  }

  /** Decimal rendering of a natural number, most significant digit first,
      without leading zeros. */
  function NatToString(n: nat): (s: string)
    ensures |s| >= 1
    ensures AllDigits(s)
    decreases n
  {
    if n < 10 then [DigitChar(n)]
    else NatToString(n / 10) + [DigitChar(n % 10)]
  }

  /** Decimal rendering of an integer, with a leading '-' when negative. */
  function IntToString(n: int): string
  {
    if n < 0 then "-" + NatToString(-n) else NatToString(n)
  }

  /** The number a non-empty digit string denotes. */
  function DigitsValue(s: string): nat
    requires AllDigits(s)
  {
    if |s| == 0 then 0
    else DigitsValue(s[..|s| - 1]) * 10 + DigitValue(s[|s| - 1])
  }

  /** Reads back an integer rendered in decimal with an optional leading '-'. */
  function ParseInt(s: string): Option<int>
  {
    if |s| > 1 && s[0] == '-' && AllDigits(s[1..]) then
      var magnitude: int := DigitsValue(s[1..]);
      Some(-magnitude)
    else if |s| > 0 && AllDigits(s) then Some(DigitsValue(s))
    else None
  }

  lemma {:induction false} DigitsValueOfNatToString(n: nat)
    ensures DigitsValue(NatToString(n)) == n
    decreases n
  {
    if n >= 10 {
      var s := NatToString(n);
      assert s[..|s| - 1] == NatToString(n / 10);
      DigitsValueOfNatToString(n / 10);
    }
  }

  /** Reading back a rendered integer gives the integer itself. */
  lemma IntToStringRoundTrip(n: int)
    ensures ParseInt(IntToString(n)) == Some(n)
  {
    if n < 0 {
      NegativeRoundTrip(n);
    } else {
      NaturalRoundTrip(n);
    }
  }

  lemma NegativeRoundTrip(n: int)
    requires n < 0
    ensures ParseInt("-" + NatToString(-n)) == Some(n)
  {
    DigitsValueOfNatToString(-n);
    ParseNegative(NatToString(-n));
  }

  /** A '-' followed by digits reads back as the negated digit value. */
  lemma ParseNegative(digits: string)
    requires |digits| >= 1 && AllDigits(digits)
    ensures ParseInt("-" + digits) == Some(-(DigitsValue(digits) as int))
  {
    var s := "-" + digits;
    assert s[1..] == digits;
  }

  lemma NaturalRoundTrip(n: nat)
    ensures ParseInt(NatToString(n)) == Some(n)
  {
    var s := NatToString(n);
    assert !(|s| > 1 && s[0] == '-') by {
      assert IsDigit(s[0]);
    }
    DigitsValueOfNatToString(n);
  }

  /** `sub` occurs in `s` starting at index `k`. */
  predicate OccursAt(s: string, sub: string, k: nat)
  {
    k + |sub| <= |s| && s[k..k + |sub|] == sub
  }

  /** `sub` is a substring of `s`. */
  predicate Contains(s: string, sub: string)
  {
    exists k: nat | k <= |s| :: OccursAt(s, sub, k)
  }

  /** `s` ends with `suffix`. */
  predicate EndsWith(s: string, suffix: string)
  {
    |suffix| <= |s| && s[|s| - |suffix|..] == suffix
  }

  /** A substring of the left part of a concatenation is one of the whole. */
  lemma ContainsLeft(a: string, b: string, sub: string)
    requires Contains(a, sub)
    ensures Contains(a + b, sub)
  {
    var k: nat :| k <= |a| && OccursAt(a, sub, k);
    assert (a + b)[k..k + |sub|] == a[k..k + |sub|];
    assert OccursAt(a + b, sub, k);
  }

  /** A substring of the right part of a concatenation is one of the whole. */
  lemma ContainsRight(a: string, b: string, sub: string)
    requires Contains(b, sub)
    ensures Contains(a + b, sub)
  {
    var k: nat :| k <= |b| && OccursAt(b, sub, k);
    assert (a + b)[|a| + k..|a| + k + |sub|] == b[k..k + |sub|];
    assert OccursAt(a + b, sub, |a| + k);
  }

  /** Every string contains itself. */
  lemma ContainsSelf(s: string)
    ensures Contains(s, s)
  {
    assert OccursAt(s, s, 0);
  }

  /** A piece of a concatenation is a substring of it. */
  lemma ContainsMiddle(pre: string, sub: string, post: string)
    ensures Contains(pre + sub + post, sub)
  {
    assert (pre + sub + post)[|pre|..|pre| + |sub|] == sub;
    assert OccursAt(pre + sub + post, sub, |pre|);
  }
}

=== FILE: xml.dfy ===
/** The shape of the XML the criteria serialise to: an element with an ordered
    attribute list and ordered children. Writing it out as a document (the
    serialising context and document sinks) is outside this model. */
module Xml {
  import opened Outcomes

  datatype Attribute = Attribute(name: string, value: string)

  datatype Element = Element(tag: string, attributes: seq<Attribute>, children: seq<Element>)

  /** The value of the first attribute called `name`, if any. */
  function AttributeValue(attributes: seq<Attribute>, name: string): (r: Option<string>)
    ensures r.Some? ==> Attribute(name, r.value) in attributes
    ensures r.None? ==> forall v :: Attribute(name, v) !in attributes
  {
    if |attributes| == 0 then None
    else if attributes[0].name == name then Some(attributes[0].value)
    else AttributeValue(attributes[1..], name)
  }
}
